=== FILE: README.md ===
# Tool-gap harvester and manifest extraction, modelled in Dafny

The project models two scripts of a small research pipeline.

- `harvest_toolgap.py` runs a YAML list of jobs against a hosted model.
  - A *web* job makes one web-search request.
  - A *file* job works in stages:
    1. It uploads a local file.
    2. It creates a temporary vector store and attaches the file.
    3. It polls until the file is processed.
    4. It runs a file-search request against the store.
    5. Its `finally` clause deletes the store.
  - Either kind of job then writes its result and pauses.
  - The `cli` loop announces each job, runs it inside a `try`, and counts failures by the first matching `except` clause.
- `scripts/02_extract_clean.py` walks a manifest of PDF files. For each row it:
  - decides an output name (`SxxEyy.txt` or the PDF's stem plus `.txt`);
  - skips the row, or reports an error, or writes the cleaned text, optionally prefixed with YAML front matter;
  - keeps three counters.

Everything outside the process is a parameter rather than an effect:

- Every reply of the remote service is scripted, one reply per call, in a `Lifecycle.Remote` record. The poll loop reads a finite list of status replies.
- `path.exists()` and the outcome of the write are fields of `Dispatch.World`.
- The manifest row and what the disk says about it are `Extract.Entry` values.

Each operation returns its outcome together with the *trace* of calls it made. The cleanup properties are stated as counts over that trace: uploads, store creations, deletions and so on.

Modules, following the program's structure:

| module | file | models |
|---|---|---|
| `Common` | common.dfy | `Option` |
| `Text` | text.dfy | `str.isspace`, `strip`, `splitlines`, `"\n".join`, ASCII `lower` |
| `Paths` | paths.dfy | `PurePosixPath(...).name` and `.stem` |
| `Lifecycle` | lifecycle.dfy | `setup_file_search_vector_store`, its poll loop, `cleanup_vector_store` |
| `Dispatch` | dispatch.dfy | `process_job` |
| `Runner` | runner.dfy | the job loop of `cli` |
| `Clean` | clean.dfy | `clean_text` |
| `FrontMatter` | frontmatter.dfy | `inject_metadata` and the metadata filtering of `main` |
| `Naming` | naming.dfy | the output file name rule (`:02d`, stem fallback) |
| `Extract` | extract.dfy | the row loop of `main` and its counters |

Where the scripts' stated intent and their code disagree, the model follows the code:

- A file job that gets past the setup deletes only the vector store. The uploaded file stays in place (`Dispatch.FileJobCleanup`).
- The fence literal of `inject_metadata` is not valid Python as written. See "## Findings".

## Model

| member | source | states |
|---|---|---|
| `Lifecycle.Swallow` | harvest_toolgap.py:141-144 | a best-effort deletion is recorded as done exactly when its reply succeeded, and as ignored otherwise |
| `Lifecycle.Settle` | harvest_toolgap.py:150-169 | the reply that ends the poll loop is the first one that is neither an in-progress status nor an `APIError`; every earlier reply is one of those |
| `Lifecycle.Poll` | harvest_toolgap.py:147-177 | the loop returns the store exactly when the settling reply says "completed"; for "failed" it raises a `RuntimeError` carrying `last_error` or "Unknown error"; for any other exception it re-raises that exception; it never ends when every reply is transient |
| `Lifecycle.PollCounts` | harvest_toolgap.py:150-177 | the loop retrieves the status once per reply, up to and including the settling one; it deletes the store and the file once each exactly when it raises; it makes no other remote call |
| `Lifecycle.PollExamples` | harvest_toolgap.py:156-169 | an in-progress status and an `APIError`, then "completed": three retrievals and the store is returned. A "failed" status with message "bad format" raises "File processing failed: bad format" |
| `Lifecycle.TeardownCount` | harvest_toolgap.py:141-144 | the cleanup after a failure deletes the store once and the file once (which store and which file: `Lifecycle.PollTargets`) |
| `Lifecycle.Attach` | harvest_toolgap.py:131-177 | adding the file comes first. The stage returns the store exactly when the add succeeds and polling completes, and hangs exactly when the add succeeds and polling never settles. It raises the add's exception, or else the poll loop's |
| `Lifecycle.AttachCount` | harvest_toolgap.py:131-177 | one add. Retrievals happen only after a successful add. The store and the file are deleted once each exactly when the add or the polling fails |
| `Lifecycle.Create` | harvest_toolgap.py:118-129 | creating the store comes first, under the `temp_vs_<stem>` name. A failed creation raises its own exception; otherwise the stage ends as the attachment does |
| `Lifecycle.CreateCount` | harvest_toolgap.py:118-145 | one store creation. A failed creation deletes the uploaded file once and nothing else; otherwise the counts are those of the attachment |
| `Lifecycle.Setup` | harvest_toolgap.py:102-179 | the upload comes first. The setup returns the new store's id exactly when upload, creation and add succeed and polling completes. It hangs exactly when polling never settles. When it raises, it raises the exception of the first failing step |
| `Lifecycle.SetupCount` | harvest_toolgap.py:108-177 | for each kind of call, how often the setup makes it, as a function of which step failed |
| `Lifecycle.UploadedCount` | harvest_toolgap.py:118-177 | the same counts for the part of the setup after a successful upload |
| `Lifecycle.PollTargets` | harvest_toolgap.py:150-177 | every retrieval and every deletion of the poll loop names the store and the file it was given |
| `Lifecycle.AttachTargets` | harvest_toolgap.py:131-177 | the add, the retrievals and the deletions after a failed add or poll name only the given store and file |
| `Lifecycle.CreateTargets` | harvest_toolgap.py:118-177 | after the upload, every file deletion is of the uploaded file, no call names a store unless its creation succeeded, and then every such call names the created store |
| `Lifecycle.SetupTargets` | harvest_toolgap.py:108-179 | the setup uploads the given path and creates `temp_vs_<stem>`; every file deletion is of the uploaded file's id, every store deletion of the created store's id, and the add and the retrievals name both |
| `Lifecycle.SetupCleansUp` | harvest_toolgap.py:108-179 | one upload. The store is created only after a successful upload, and the file is added only after both. When the setup raises, it deletes the uploaded file if the upload succeeded and the store if it was created. When it does not raise, it deletes nothing |
| `Lifecycle.SetupIgnoresCleanupFailures` | harvest_toolgap.py:126-177 | how the setup ends never depends on whether its best-effort deletions succeed |
| `Lifecycle.CleanupStore` | harvest_toolgap.py:181-188 | one deletion of the given store. The call returns normally whatever the reply; a failure is recorded as ignored, with its exception |
| `Dispatch.ChooseModel` | harvest_toolgap.py:221-228 | the job's `model` whenever it is present and non-empty; otherwise the default. The result is empty only when the default is |
| `Dispatch.DefaultModels` | harvest_toolgap.py:221-228 | without a usable model, a saved web job uses gpt-4.1 and a saved file job uses gpt-4o-mini |
| `Dispatch.SearchCall` | harvest_toolgap.py:240-243 | the `try` block makes exactly one file search, with the store id and the model, when the setup returned and the job has a query; otherwise it makes none |
| `Dispatch.FileTry` | harvest_toolgap.py:229-243 | `vector_store_id` is set exactly when the file path is given, exists, and the setup returned, and then it holds the created store. The calls are those of the setup plus at most the search. A hang or an exception in the setup is the block's. After a setup that returned, the block raises `KeyError` for a missing `query`, else the search's exception, else it returns the record of the query, the model, the answer and the created store |
| `Dispatch.Finally` | harvest_toolgap.py:245-248 | the `finally` clause keeps the block's outcome and calls. It appends exactly one store deletion when the id is a non-empty string |
| `Dispatch.FinallyCounts` | harvest_toolgap.py:245-248 | the `finally` clause adds one store deletion exactly when the id is truthy, and no other call |
| `Dispatch.FileJob` | harvest_toolgap.py:227-248 | the file branch ends as its `try` block ends: the cleanup never changes the outcome |
| `Dispatch.Persist` | harvest_toolgap.py:253-267 | after a result, the job saves to `job["out"]` and then pauses. A missing `out` raises `KeyError` and a failed write raises the write's own exception. An earlier exception passes through untouched |
| `Dispatch.PersistCounts` | harvest_toolgap.py:253-267 | saving and pausing are neither uploads nor deletions |
| `Dispatch.WebJob` | harvest_toolgap.py:223-225 | one web search with the query and the model. Its answer becomes the record, and its failure is the job's exception |
| `Dispatch.ProcessJob` | harvest_toolgap.py:218-267 | a job is saved exactly when it passes the checks, has `query` and `out`, its search and its write succeed, and, for a file job, the setup returned. A web job that passed the checks and raises raises the search's exception, else `KeyError` for a missing `out`, else the write's exception. The saved record carries the query, the chosen model and, for file jobs, the created store. The last two calls are the save and the pause. Only a file job that passed the checks can hang |
| `Dispatch.PrecheckDecides` | harvest_toolgap.py:218-237 | a job makes no call at all exactly when it fails the checks that precede the remote calls: a missing `type`, a web job without `query`, an unknown type, a file job without `file_path` or whose file does not exist. It then raises the exception those checks name. A file job without `query` passes them: it uploads, creates and polls the store, and only then raises `KeyError` (line 243) |
| `Dispatch.FileTryCounts` | harvest_toolgap.py:239-243 | uploads and deletions in the `try` block are those of the setup |
| `Dispatch.FileJobCounts` | harvest_toolgap.py:227-257 | a file job that passes the checks makes the setup's uploads and deletions, plus one store deletion when `vector_store_id` is truthy |
| `Dispatch.FileJobTargets` | harvest_toolgap.py:229-248 | a file job deletes only the uploaded file and the created store, including the `finally` clause's deletion |
| `Dispatch.FileJobCleanup` | harvest_toolgap.py:227-248 | a file job that passes the checks uploads once. It deletes the store exactly once when the store was created with a non-empty id and polling settled, and never when no store was created or polling hangs. It deletes the file only when the setup itself raised |
| `Dispatch.WebJobCalls` | harvest_toolgap.py:223-267 | a web job that passes the checks makes exactly one remote call: the web search with its query and model |
| `Runner.HandlerFor` | harvest_toolgap.py:325-336 | `FileNotFoundError`, `ValueError` and `APIError` reach their own clauses. Every other exception, `KeyError` included, reaches the catch-all |
| `Runner.Announce` | harvest_toolgap.py:321-322 | announcing an entry raises exactly when the entry is not a mapping, or is a mapping whose `type` is present but not a string; the exception is then an `AttributeError`. A mapping without `type` announces as 'UNKNOWN' and does not raise |
| `Runner.LogOf` | harvest_toolgap.py:323-336 | a job that returns is logged as saved. A job that raises is logged as failed, with the clause that caught it |
| `Runner.StepOf` | harvest_toolgap.py:319-336 | one iteration as written. An entry whose announcement raises aborts the loop. A job that polls forever hangs it. Otherwise the job is logged |
| `Runner.ContainedStepOf` | harvest_toolgap.py:321-336 | one iteration with the announcement inside the `try`. It never aborts, and a malformed entry is logged as an unexpected failure |
| `Runner.Tally` | harvest_toolgap.py:318-336 | the loop logs iterations in order up to the first one that is not logged, and says whether it finished, hung or aborted there. `failures` counts the logged failures |
| `Runner.RunJobs` | harvest_toolgap.py:318-336 | the loop as written logs each job's outcome, in order, until an entry's announcement raises (the run aborts with that exception) or a job polls forever. It finishes exactly when every entry was logged |
| `Runner.RunJobsContained` | harvest_toolgap.py:318-336 | with the announcement inside the `try`, the loop never aborts. Only a job that polls forever stops it. A malformed entry is counted as an unexpected failure |
| `Runner.SavedStep` | harvest_toolgap.py:319-324 | a web job with `query` and `out` whose search and write succeed is logged as saved, with its query |
| `Runner.MissingQueryIsCounted` | harvest_toolgap.py:318-336 | three web jobs whose searches and writes succeed, the second without `query`: all three are logged, the first and third saved, and one failure is counted, the second's `KeyError` under the last clause |
| `Runner.SearchFailureIsApi` | harvest_toolgap.py:323-333 | a web job whose search raises an `APIError` is logged under the API clause with that exception |
| `Runner.MalformedEntryStopsRun` | harvest_toolgap.py:321-322 | with a `null` item before a job that ends, the loop as written attempts nothing. With the announcement inside the `try`, both items are logged |
| `Runner.FailuresBound` | harvest_toolgap.py:341-345 | at most every logged job fails, and no logged job failed exactly when every logged job was saved. For a run that finishes (`halt.Finished?`), the log holds every job, so "All jobs completed successfully" is printed exactly when every job was saved; a run that aborts or hangs never reaches the summary |
| `Text.SplitLines` | scripts/02_extract_clean.py:55 | the lines contain no line break, and only "" splits into no lines |
| `Text.SplitJoin` | scripts/02_extract_clean.py:55-56 | splitting undoes `"\n".join` for lines without breaks whose last line is not empty |
| `Text.SplitTerminated` | scripts/02_extract_clean.py:60-69 | a block of "\n"-terminated lines splits into exactly those lines, whatever follows it |
| `Text.Strip` | scripts/02_extract_clean.py:55 | the result is a slice of the input with only whitespace before and after it, has no whitespace at either end, and is empty exactly when the input is all whitespace |
| `Text.StripFixed` | scripts/02_extract_clean.py:55 | a string with no whitespace at either end is its own `strip()` |
| `Text.StripIdempotent` | scripts/02_extract_clean.py:55 | `strip()` applied twice is `strip()` |
| `Text.Lower` | harvest_toolgap.py:219 | the same length. Each ASCII capital becomes its own lower-case letter, and every other character is kept |
| `Clean.StripAll` | scripts/02_extract_clean.py:55 | one line per input line, in order, each the `strip()` of its input line |
| `Clean.NonBlank` | scripts/02_extract_clean.py:56 | `filter(None, ...)` keeps exactly the non-empty lines |
| `Clean.CleanLines` | scripts/02_extract_clean.py:55-56 | every kept line is non-empty, has no break, and has no whitespace at either end |
| `Clean.CleanText` | scripts/02_extract_clean.py:45-58 | the cleaned text has no whitespace at either end. Its only line break is "\n", and each "\n" sits between two non-space characters, so there are no blank lines |
| `Clean.JoinTidy` | scripts/02_extract_clean.py:56 | joining finished lines gives seamless text, and no lines give "" |
| `Clean.CleanTextLines` | scripts/02_extract_clean.py:55-56 | the lines of the cleaned text are the stripped, non-empty lines of the input, in order |
| `Clean.CleanTextIdempotent` | scripts/02_extract_clean.py:55-56 | cleaning cleaned text changes nothing |
| `FrontMatter.Metadata` | scripts/02_extract_clean.py:137-141 | an entry is kept exactly when its column is neither `checksum` nor `file_name` and its cell is not NaN |
| `FrontMatter.MetadataAppend` | scripts/02_extract_clean.py:141 | the filtering keeps column order, since it distributes over concatenation |
| `FrontMatter.FrontLines` | scripts/02_extract_clean.py:62-68 | the block has one line per entry plus the two fences |
| `FrontMatter.Inject` | scripts/02_extract_clean.py:60-69 | the result starts with the fence "---\n", ends with the body, and has the closing fence just before the body |
| `FrontMatter.InjectLines` | scripts/02_extract_clean.py:60-69 | when no key or value holds a break, the result's lines are the fence, one `key: value` line per entry in order, the fence, then the body's lines |
| `FrontMatter.Literal` | scripts/02_extract_clean.py:62-63 | a literal is read only from text that opens with a double quote |
| `FrontMatter.LiteralCloses` | scripts/02_extract_clean.py:62-63 | a literal that reads ends at a closing double quote, and every line break before that quote follows a backslash (a line continuation) |
| `FrontMatter.RawBreakUnterminated` | scripts/02_extract_clean.py:62-63 | a line break before any quote or backslash leaves the literal unterminated |
| `FrontMatter.FenceLiteral` | scripts/02_extract_clean.py:62-68 | the fence literal as written is unterminated, hence `None`. Written with the `\n` escape, it reads as the fence `Inject` writes |
| `Naming.Pad2` | scripts/02_extract_clean.py:108 | `:02d`: at least two characters. A single digit gets one leading zero; 10 and above and negatives get none. Only digits for non-negative numbers, and never an `E` |
| `Naming.Pad2RoundTrip` | scripts/02_extract_clean.py:108 | reading the padded text back gives the number |
| `Naming.EpisodeName` | scripts/02_extract_clean.py:108 | an `S…E….txt` name |
| `Naming.EpisodeNameRoundTrip` | scripts/02_extract_clean.py:108 | the episode name determines the season and the episode |
| `Naming.EpisodeNameExamples` | scripts/02_extract_clean.py:108 | `S01E05.txt`, `S12E123.txt`, `00`, `-3` |
| `Naming.OutputName` | scripts/02_extract_clean.py:105-111 | the name ends in `.txt`. With season and episode it reads back as exactly those two numbers. Otherwise it is the stem of the PDF's file name |
| `Paths.LastIndex` | scripts/02_extract_clean.py:111 | the last occurrence of a character: found there and nowhere after |
| `Paths.ComponentsArePlain` | scripts/02_extract_clean.py:111 | every kept path component is non-empty, not ".", and free of "/" |
| `Paths.Name` | scripts/02_extract_clean.py:111 | `.name` is "" or a single plain component |
| `Paths.NameOfJoin` | scripts/02_extract_clean.py:111 | the name of `dir/n` is `n` for any directory part |
| `Paths.Stem` | scripts/02_extract_clean.py:111 | the last suffix is removed only when its dot is neither the first nor the last character |
| `Extract.ProcessRow` | scripts/02_extract_clean.py:97-150 | each outcome holds exactly when its guard does: no file name; skipped; PDF missing; extraction failed; write failed; written. A written row carries the cleaned text, with front matter when asked. The output name is the naming rule's |
| `Extract.Bump` | scripts/02_extract_clean.py:118-150 | the outcome moves exactly the counter of its kind by one, and a row without a file name moves none |
| `Extract.NamedRowsAreCounted` | scripts/02_extract_clean.py:97-150 | the rows with a file name are exactly the rows that move a counter |
| `Extract.ExtractAll` | scripts/02_extract_clean.py:93-150 | one outcome per row, in order. Each counter counts the outcomes of its kind, and the three counters add up to the rows with a file name |

## Left out

- Lifecycle.StoreName: the store is named `temp_vs_<stem>` without the `_<timestamp>` suffix. The clock is not modelled and the name is never read back.
- Dispatch.FileTry: `expanduser` is not applied. The upload, the store name and the `FileNotFoundError` message use the raw `file_path`, where the source uses the expanded path (harvest_toolgap.py:235-237). Whether the path exists is a parameter.
- Text.Lower: lowercases ASCII letters only. This changes only the text of the "Unknown job type" message for a non-ASCII type, because "web" and "file" are ASCII.
- Paths.Stem: POSIX paths only. It uses the suffix rule of pathlib before Python 3.14, under which "a." keeps its dot.
- Lifecycle.FailureMessage: a `last_error` object whose `message` is `None` is not modelled. Python would print "File processing failed: None". The model's `lastError` is either a message or absent, and absent gives "Unknown error".
- Lifecycle.Poll: the poll loop has no timeout. A finite script whose replies are all transient ends in `Stall`, which stands for a loop that never returns. The elapsed time and the progress messages are not modelled.
- Naming.OutputName: season and episode are taken as already-parsed integers. `int()` truncation of float cells (1.9 becomes 1) and its `ValueError` on text cells are not modelled.
- Dispatch.ProcessJob: a job is a map from keys to strings. Other non-string values are not modelled, for example a numeric `model`, `query`, `file_path` or `out`, or a `type` that is not a string inside `process_job`. `Runner.Entry` covers the entries whose announcement raises.
- FrontMatter.Literal: decodes only the escapes `\n`, `\\` and `\"` and the line continuation. Python's other escapes (`\t`, `\r`, `\'`, `\xhh`, octal, `\N{...}`) are kept as written, because the front matter's literals use none of them.
- Runner.StepOf: every exception of kind `APIError` is logged under the API clause. That clause's message reads `e.status_code` (harvest_toolgap.py:332). The connection and timeout errors of the API client have no such attribute, so for them the handler itself would raise `AttributeError` out of the loop. The client library's class layout is not part of this model.
- Runner.RunJobs: it computes every iteration's step in advance and logs them up to the first stop. The model is pure, so this is equivalent to running them one by one.
- Loading the jobs file (harvest_toolgap.py:301-313): reading and parsing the YAML, and the check that it is a list. Their `sys.exit` paths are outside the loop.
- The API key check, argparse, the output directory with its timestamp, and the progress prints of both scripts.
- The hosted service's response objects: `output_structured`, `created`, `raw`. The record keeps the query, the model, the output text and the store id.
- `json.dumps`, `mkdir` and the relative-path print of the save step. Saving is one call whose reply is success or an exception.
- `smart_sleep` durations. Only the kind of pause is recorded: poll interval, doubled back-off, job pause.
- `extract_text_from_pdf`: its text, or `None` on failure, is a parameter of each row.
- Reading the manifest with pandas (scripts/02_extract_clean.py:81-88). A row arrives already parsed, with absent or NaN cells as `None`.
- A metadata value appears as the text `str()` gives it.

## Findings

| source | as written | input that shows it | evidently intended | confidence | as-written member | corrected member |
|---|---|---|---|---|---|---|
| harvest_toolgap.py:321-322 | the announcement calls `job.get(...)` and `.upper()` before the `try`, so an `AttributeError` escapes `cli` and no later job runs | a jobs list `[null, {type: web, query: q, out: o.json}]` (or an entry with `type: 1`) | an error in one job never stops the others; the announcement belongs inside the `try` and is counted as an unexpected failure | not executed | `Runner.MalformedEntryStopsRun` | `Runner.RunJobsContained` |
| scripts/02_extract_clean.py:62-68 | the fence literals `"---` / `"` span two source lines; an unterminated string is a `SyntaxError`, so the script never runs a single row | compiling the script | the fence `"---\n"` at both ends of the block | not executed | `FrontMatter.FenceLiteral` | `FrontMatter.InjectLines` |

=== FILE: clean.dfy ===
/**
 `clean_text` of the extraction script: every line of the extracted text is
 stripped, blank lines are dropped, and the rest are joined with "\n".
 (The placeholder progress messages it prints are not modelled.)
 */
module Clean {
  import opened Text

  /** `[line.strip() for line in lines]`. */
  function StripAll(lines: seq<string>): (r: seq<string>)
    ensures |r| == |lines|
    ensures forall i :: 0 <= i < |lines| ==> r[i] == Strip(lines[i])
  {
    seq(|lines|, i requires 0 <= i < |lines| => Strip(lines[i]))
  }

  /** `filter(None, lines)`: the non-empty lines, in their original order. */
  function NonBlank(lines: seq<string>): (r: seq<string>)
    ensures forall l :: l in r <==> l in lines && l != ""
    ensures |r| <= |lines|
  {
    if lines == [] then []
    else (if lines[0] != "" then [lines[0]] else []) + NonBlank(lines[1..])
  }

  /** A finished output line: non-empty, one line, no whitespace at either end. */
  predicate Tidy(l: string) {
    l != "" && NoBreak(l) && !IsSpace(l[0]) && !IsSpace(l[|l| - 1])
  }

  /**
   The character-level shape of cleaned text: it neither starts nor ends with
   whitespace, its only line break is "\n", and every "\n" sits between two
   non-whitespace characters.
   */
  predicate Seamless(s: string) {
    && (|s| > 0 ==> !IsSpace(s[0]) && !IsSpace(s[|s| - 1]))
    && forall i :: 0 <= i < |s| && IsLineBreak(s[i]) ==>
         s[i] == '\n' && 0 < i < |s| - 1 && !IsSpace(s[i - 1]) && !IsSpace(s[i + 1])
  }

  /** The lines `clean_text` keeps, before they are joined. */
  function CleanLines(raw: string): (r: seq<string>)
    ensures forall l :: l in r ==> Tidy(l)
  {
    var split := SplitLines(raw);
    var stripped := StripAll(split);
    assert forall l :: l in stripped ==> l == "" || Tidy(l) by {
      forall l | l in stripped
        ensures l == "" || Tidy(l)
      {
        var i :| 0 <= i < |stripped| && stripped[i] == l;
        assert split[i] in split;
      }
    }
    NonBlank(stripped)
  }

  /** `clean_text(raw_text, filename)`. */
  function CleanText(raw: string): (r: string)
    ensures Seamless(r)
    ensures |r| > 0 ==> r[0] != '\n' && r[|r| - 1] != '\n'
    ensures forall i :: 0 <= i < |r| - 1 ==> !(r[i] == '\n' && r[i + 1] == '\n')
  {
    var lines := CleanLines(raw);
    JoinTidy(lines);
    Join(lines)
  }

  /** Joining finished lines gives seamless text, and no lines give "". */
  lemma {:induction false} JoinTidy(lines: seq<string>)
    requires forall l :: l in lines ==> Tidy(l)
    ensures Seamless(Join(lines))
    ensures |Join(lines)| == 0 <==> lines == []
  {
    if |lines| == 0 {
    } else if |lines| == 1 {
      var l := lines[0];
      assert l in lines && Join(lines) == l;
      assert forall i :: 0 <= i < |l| ==> l[i] in l;
    } else {
      var tail := lines[1..];
      JoinTidy(tail);
      JoinSeam(lines[0], Join(tail));
    }
  }

  /** Gluing a finished line in front of seamless non-empty text keeps it seamless. */
  lemma JoinSeam(l: string, rest: string)
    requires Tidy(l) && Seamless(rest) && |rest| > 0
    ensures Seamless(l + "\n" + rest)
  {
    var s := l + "\n" + rest;
    var n := |l|;
    forall i | 0 <= i < |s| && IsLineBreak(s[i])
      ensures s[i] == '\n' && 0 < i < |s| - 1 && !IsSpace(s[i - 1]) && !IsSpace(s[i + 1])
    {
      if i > n {
        var j := i - n - 1;
        assert s[i] == rest[j];
        if j > 0 {
          assert s[i - 1] == rest[j - 1];
        }
        assert s[i + 1] == rest[j + 1];
      }
    }
  }

  /** The output's lines are the stripped input lines, in order, blank ones removed. */
  lemma CleanTextLines(raw: string)
    ensures SplitLines(CleanText(raw)) == NonBlank(StripAll(SplitLines(raw)))
  {
    var lines := CleanLines(raw);
    assert lines != [] ==> lines[|lines| - 1] in lines;
    SplitJoin(lines);
  }

  lemma {:induction false} NonBlankKeepsFull(lines: seq<string>)
    requires forall l :: l in lines ==> l != ""
    ensures NonBlank(lines) == lines
  {
    if lines != [] {
      assert lines[0] in lines;
      assert forall l :: l in lines[1..] ==> l in lines;
      NonBlankKeepsFull(lines[1..]);
      assert lines == [lines[0]] + lines[1..];
    }
  }

  /** Cleaning already-cleaned text gives it back unchanged. */
  lemma CleanTextIdempotent(raw: string)
    ensures CleanText(CleanText(raw)) == CleanText(raw)
  {
    var lines := CleanLines(raw);
    CleanTextLines(raw);
    var stripped := StripAll(lines);
    forall i | 0 <= i < |lines|
      ensures stripped[i] == lines[i]
    {
      assert lines[i] in lines;
      StripFixed(lines[i]);
    }
    assert stripped == lines;
    NonBlankKeepsFull(lines);
  }
}

=== FILE: common.dfy ===
/** Small shared vocabulary. */
module Common {

  /** A value that may be absent: a missing key, a `None`, a NaN cell. */
  datatype Option<+T> = None | Some(value: T) {

    /** `value` when present, `default` otherwise. */
    function GetOr(default: T): T {
      match this
      case Some(v) => v
      case None => default
    }
  }
}

=== FILE: dispatch.dfy ===
/**
 `process_job` of the harvester: validate one job, run a web search or a
 file search against a temporary vector store, always clean up a store
 that was set up, and save the result.

 A job is the YAML mapping as a map from keys to string values. The file
 system's answer to `path.exists()` and the outcome of writing the result
 are part of the `World` the job runs in.
 */
module Dispatch {
  import opened Common
  import opened Lifecycle
  import Text

  type Job = map<string, string>

  const DefaultWebModel: string := "gpt-4.1"
  const DefaultFileModel: string := "gpt-4o-mini"

  /** Everything outside the job that decides how it runs. */
  datatype World = World(pathExists: bool, remote: Remote, save: Reply<()>)

  /** The JSON document a successful job writes (timestamps and raw output aside). */
  datatype Record = Record(query: string, model: string, outputText: string, storeId: Option<string>)

  /** The `KeyError` that `job[key]` raises for an absent key. */
  function Missing(key: string): Exc {
    Exc(KeyError, "'" + key + "'")
  }

  const FilePathRequired: string := "Job type 'file' requires 'file_path' for this script."

  /** `job["type"].lower()`, for a job that has a type. */
  function Kind(job: Job): string
    requires "type" in job
  {
    Text.Lower(job["type"])
  }

  predicate IsWebJob(job: Job) {
    "type" in job && Kind(job) == "web"
  }

  predicate IsFileJob(job: Job) {
    "type" in job && Kind(job) == "file"
  }

  /** `job.get("model")`, replaced by `default` when absent or empty. */
  function ChooseModel(job: Job, default: string): (m: string)
    ensures m == default || ("model" in job && m == job["model"])
    ensures m == "" ==> default == ""
    ensures "model" in job && job["model"] != "" ==> m == job["model"]
  {
    if "model" in job && job["model"] != "" then job["model"] else default
  }

  /**
   The checks `process_job` makes before any remote call, as an independent
   statement: the exception a job fails them with, or `None` when it passes.
   */
  function Precheck(job: Job, w: World): Option<Exc> {
    if "type" !in job then Some(Missing("type"))
    else if IsWebJob(job) then (if "query" in job then None else Some(Missing("query")))
    else if IsFileJob(job) then
      if "file_path" !in job then Some(Exc(ValueError, FilePathRequired))
      else if !w.pathExists then Some(Exc(FileNotFoundError, "File not found at path: " + job["file_path"]))
      else None
    else Some(Exc(ValueError, "Unknown job type: " + Kind(job)))
  }

  /**
   How the `try` block of the file branch ends: its run, and the value that
   `vector_store_id` holds when the `finally` clause runs.
   */
  datatype TryResult = TryResult(run: Run<Record>, storeId: Option<string>)

  /** The search the `try` block makes after a setup that ended with `setup`: one, or none. */
  function SearchCall(job: Job, setup: Outcome<string>, model: string): (calls: seq<Event>)
    ensures |calls| <= 1
    ensures calls != [] <==> setup.Return? && "query" in job
    ensures calls != [] ==> calls[0] == FileSearch(job["query"], setup.value, model)
  {
    if setup.Return? && "query" in job then [FileSearch(job["query"], setup.value, model)] else []
  }

  /** The `try` block of the file branch. */
  function FileTry(job: Job, model: string, w: World): (res: TryResult)
    ensures res.storeId.Some? <==> "file_path" in job && w.pathExists && Setup(job["file_path"], w.remote).out.Return?
    ensures res.storeId.Some? ==> res.storeId.value == w.remote.create.value
    ensures res.run.out.Return? ==> "query" in job && res.run.out.value.storeId == res.storeId
    ensures res.run.out.Return? ==> res.run.out.value.query == job["query"] && res.run.out.value.model == model
    ensures "file_path" in job && w.pathExists ==>
      var setup := Setup(job["file_path"], w.remote);
      && res.run.trace == setup.trace + SearchCall(job, setup.out, model)
      && (setup.out.Stall? ==> res.run.out.Stall?)
      && (setup.out.Raise? ==> res.run.out == Raise(setup.out.exc))
    ensures "file_path" in job && w.pathExists && Setup(job["file_path"], w.remote).out.Return? ==>
      res.run.out ==
        if "query" !in job then Raise(Missing("query"))
        else if w.remote.search.Fail? then Raise(w.remote.search.exc)
        else Return(Record(job["query"], model, w.remote.search.value, Some(w.remote.create.value)))
  {
    if "file_path" !in job then TryResult(Run(Raise(Exc(ValueError, FilePathRequired)), []), None)
    else
      var path := job["file_path"];
      if !w.pathExists then TryResult(Run(Raise(Exc(FileNotFoundError, "File not found at path: " + path)), []), None)
      else
        var setup := Setup(path, w.remote);
        match setup.out
        case Raise(e) => TryResult(Run(Raise(e), setup.trace), None)
        case Stall => TryResult(Run(Stall, setup.trace), None)
        case Return(id) =>
          if "query" !in job then TryResult(Run(Raise(Missing("query")), setup.trace), Some(id))
          else
            var query := job["query"];
            var call := FileSearch(query, id, model);
            var trace := setup.trace + [call];
            match w.remote.search
            case Fail(e) => TryResult(Run(Raise(e), trace), Some(id))
            case Ok(text) => TryResult(Run(Return(Record(query, model, text, Some(id))), trace), Some(id))
  }

  /**
   The `finally` clause of the file branch: whenever `vector_store_id` is
   truthy (a non-empty id) the store is deleted, and the outcome of the
   `try` block stands.
   */
  function Finally(attempt: Run<Record>, id: Option<string>, r: Remote): (run: Run<Record>)
    ensures run.out == attempt.out
    ensures |run.trace| >= |attempt.trace| && run.trace[..|attempt.trace|] == attempt.trace
    ensures id.Some? && id.value != "" ==>
      run.trace[|attempt.trace|..] == [DeleteStore(id.value, Swallow(r.deleteStore))]
    ensures !(id.Some? && id.value != "") ==> run.trace == attempt.trace
  {
    if id.Some? && id.value != "" then
      var cleanup := CleanupStore(id.value, r);
      var trace := attempt.trace + cleanup.trace;
      assert trace[..|attempt.trace|] == attempt.trace;
      assert trace[|attempt.trace|..] == cleanup.trace;
      Run(attempt.out, trace)
    else attempt
  }

  /** The file branch: the `try` block, then the `finally` clause. */
  function FileJob(job: Job, model: string, w: World): (run: Run<Record>)
    ensures run.out == FileTry(job, model, w).run.out
  {
    var attempt := FileTry(job, model, w);
    Finally(attempt.run, attempt.storeId, w.remote)
  }

  /**
   The tail of `process_job` after a search returned: write the result to
   `job["out"]`, then pause. A missing `out` key or a failed write raises.
   */
  function Persist(job: Job, result: Run<Record>, w: World): (run: Run<Record>)
    ensures |run.trace| >= |result.trace| && run.trace[..|result.trace|] == result.trace
    ensures !result.out.Return? ==> run == result
    ensures run.out.Return? <==> result.out.Return? && "out" in job && w.save.Ok?
    ensures run.out.Return? ==> run.out == result.out
    ensures result.out.Return? && "out" !in job ==> run == Run(Raise(Missing("out")), result.trace)
    ensures result.out.Return? && "out" in job && w.save.Fail? ==> run.out == Raise(w.save.exc)
    ensures run.out.Return? ==> run.trace[|result.trace|..] == [Save(job["out"]), Sleep(JobPause)]
    ensures forall i :: |result.trace| <= i < |run.trace| ==> run.trace[i].Save? || run.trace[i].Sleep?
  {
    match result.out
    case Return(rec) =>
      if "out" !in job then Run(Raise(Missing("out")), result.trace)
      else
        var write := Save(job["out"]);
        (match w.save
         case Fail(e) =>
           var trace := result.trace + [write];
           assert trace[..|result.trace|] == result.trace && trace[|result.trace|..] == [write];
           Run(Raise(e), trace)
         case Ok(_) =>
           var trace := result.trace + [write, Sleep(JobPause)];
           assert trace[..|result.trace|] == result.trace;
           assert trace[|result.trace|..] == [write, Sleep(JobPause)];
           Run(Return(rec), trace))
    case _ => result
  }

  /** The web branch: one search, whose answer is the record. */
  function WebJob(query: string, model: string, r: Remote): (run: Run<Record>)
    ensures run.trace == [WebSearch(query, model)]
    ensures run.out.Return? <==> r.search.Ok?
    ensures run.out.Return? ==> run.out.value == Record(query, model, r.search.value, None)
    ensures run.out.Raise? ==> run.out.exc == r.search.exc
  {
    match r.search
    case Fail(e) => Run(Raise(e), [WebSearch(query, model)])
    case Ok(text) => Run(Return(Record(query, model, text, None)), [WebSearch(query, model)])
  }

  /** `process_job(job, outdir, sleep_s)`. */
  function ProcessJob(job: Job, w: World): (run: Run<Record>)
    ensures run.out.Return? ==>
      && Precheck(job, w).None? && "query" in job && "out" in job && w.save.Ok?
      && run.out.value.query == job["query"]
      && |run.trace| >= 2 && run.trace[|run.trace| - 2..] == [Save(job["out"]), Sleep(JobPause)]
    ensures run.out.Return? && IsWebJob(job) ==>
      run.out.value.model == ChooseModel(job, DefaultWebModel) && run.out.value.storeId.None?
    ensures run.out.Return? && IsFileJob(job) ==>
      run.out.value.model == ChooseModel(job, DefaultFileModel) && w.remote.create.Ok? && run.out.value.storeId == Some(w.remote.create.value)
    ensures run.out.Stall? ==> IsFileJob(job) && Precheck(job, w).None?
    ensures run.out.Return? <==>
      && Precheck(job, w).None? && "query" in job && "out" in job && w.save.Ok? && w.remote.search.Ok?
      && (IsFileJob(job) ==> Setup(job["file_path"], w.remote).out.Return?)
    ensures run.out.Raise? && IsWebJob(job) && Precheck(job, w).None? ==>
      run.out.exc ==
        if w.remote.search.Fail? then w.remote.search.exc
        else if "out" !in job then Missing("out")
        else w.save.exc
  {
    if "type" !in job then Run(Raise(Missing("type")), [])
    else
      var kind := Kind(job);
      if kind == "web" then
        var model := ChooseModel(job, DefaultWebModel);
        if "query" !in job then Run(Raise(Missing("query")), [])
        else
          Persist(job, WebJob(job["query"], model, w.remote), w)
      else if kind == "file" then
        var model := ChooseModel(job, DefaultFileModel);
        Persist(job, FileJob(job, model, w), w)
      else Run(Raise(Exc(ValueError, "Unknown job type: " + kind)), [])
  }

  /**
   A job fails the checks before any remote call exactly when it produces no
   events at all, and then it raises the exception the checks name.
   */
  lemma PrecheckDecides(job: Job, w: World)
    ensures ProcessJob(job, w).trace == [] <==> Precheck(job, w).Some?
    ensures Precheck(job, w).Some? ==> ProcessJob(job, w).out == Raise(Precheck(job, w).value)
  {
    if IsFileJob(job) && Precheck(job, w).None? {
      var model := ChooseModel(job, DefaultFileModel);
      var attempt := FileTry(job, model, w).run;
      var setup := Setup(job["file_path"], w.remote);
      assert attempt.trace[0] == setup.trace[0];
      assert FileJob(job, model, w).trace[0] == attempt.trace[0];
    }
  }

  /** Without a usable `model`, a web job uses gpt-4.1 and a file job gpt-4o-mini. */
  lemma DefaultModels(job: Job, w: World)
    requires "model" !in job || job["model"] == ""
    ensures var run := ProcessJob(job, w);
      run.out.Return? ==> run.out.value.model == (if IsWebJob(job) then "gpt-4.1" else "gpt-4o-mini")
  {
  }

  lemma FileJobPersists(job: Job, w: World)
    requires IsFileJob(job)
    ensures ProcessJob(job, w) == Persist(job, FileJob(job, ChooseModel(job, DefaultFileModel), w), w)
  {
  }

  /**
   Past the checks, a file job's events are those of the setup, then at most
   a search, at most one store deletion by the `finally` clause, and the
   write and the pause.
   */
  lemma FileJobCounts(job: Job, w: World, op: Op)
    requires IsFileJob(job) && Precheck(job, w).None?
    requires op == OpUpload || op == OpDeleteStore || op == OpDeleteFile
    ensures var id := FileTry(job, ChooseModel(job, DefaultFileModel), w).storeId;
      Count(ProcessJob(job, w).trace, op)
        == Count(Setup(job["file_path"], w.remote).trace, op)
           + (if op == OpDeleteStore && id.Some? && id.value != "" then 1 else 0)
  {
    var model := ChooseModel(job, DefaultFileModel);
    FileJobPersists(job, w);
    PersistCounts(job, FileJob(job, model, w), w, op);
    var attempt := FileTry(job, model, w);
    FinallyCounts(attempt.run, attempt.storeId, w.remote, op);
    FileTryCounts(job, model, w, op);
  }

  /** The `finally` clause adds one store deletion when the id is truthy, and nothing else. */
  lemma FinallyCounts(attempt: Run<Record>, id: Option<string>, r: Remote, op: Op)
    ensures Count(Finally(attempt, id, r).trace, op)
      == Count(attempt.trace, op) + (if op == OpDeleteStore && id.Some? && id.value != "" then 1 else 0)
  {
    var run := Finally(attempt, id, r);
    CountSplit(run.trace, |attempt.trace|, op);
    var cleanup := run.trace[|attempt.trace|..];
    if id.Some? && id.value != "" {
      CountOne(cleanup[0], op);
    } else {
      assert cleanup == [];
    }
  }

  /** The write and the pause are neither uploads nor deletions. */
  lemma PersistCounts(job: Job, result: Run<Record>, w: World, op: Op)
    requires op == OpUpload || op == OpDeleteStore || op == OpDeleteFile
    ensures Count(Persist(job, result, w).trace, op) == Count(result.trace, op)
  {
    if result.out.Return? && "out" in job {
      var write := Save(job["out"]);
      if w.save.Ok? {
        assert Persist(job, result, w).trace == result.trace + [write, Sleep(JobPause)];
        CountAppend(result.trace, [write, Sleep(JobPause)], op);
        CountTwo(write, Sleep(JobPause), op);
      } else {
        assert Persist(job, result, w).trace == result.trace + [write];
        CountAppend(result.trace, [write], op);
        CountOne(write, op);
      }
    }
  }

  /** The search after the setup is neither an upload nor a deletion. */
  lemma FileTryCounts(job: Job, model: string, w: World, op: Op)
    requires "file_path" in job && w.pathExists
    requires op == OpUpload || op == OpDeleteStore || op == OpDeleteFile
    ensures Count(FileTry(job, model, w).run.trace, op) == Count(Setup(job["file_path"], w.remote).trace, op)
  {
    var setup := Setup(job["file_path"], w.remote);
    SearchAddsNothing(setup.trace, SearchCall(job, setup.out, model), op);
  }

  /** Appending at most one file search leaves the count of any other call unchanged. */
  lemma SearchAddsNothing(trace: seq<Event>, calls: seq<Event>, op: Op)
    requires |calls| <= 1 && (calls != [] ==> calls[0].FileSearch?)
    requires op != OpFileSearch
    ensures Count(trace + calls, op) == Count(trace, op)
  {
    CountAppend(trace, calls, op);
    if calls != [] {
      assert calls == [calls[0]];
      CountOne(calls[0], op);
    }
  }

  /**
   A file job that passes the checks uploads once; every store it creates is
   deleted exactly once unless the job hangs in the poll loop or the store's
   id is empty (which makes `vector_store_id` falsy); no store is deleted
   that was not created. The uploaded file is deleted only when the setup
   itself fails: a job that gets past the setup leaves it in place.
   */
  lemma FileJobCleanup(job: Job, w: World)
    requires IsFileJob(job) && Precheck(job, w).None?
    ensures var run := ProcessJob(job, w);
      var r := w.remote;
      var setup := Setup(job["file_path"], r);
      && Count(run.trace, OpUpload) == 1
      && (setup.out.Stall? ==> Count(run.trace, OpDeleteStore) == 0)
      && (!setup.out.Stall? && r.upload.Ok? && r.create.Ok? && r.create.value != "" ==>
            Count(run.trace, OpDeleteStore) == 1)
      && (!(r.upload.Ok? && r.create.Ok?) ==> Count(run.trace, OpDeleteStore) == 0)
      && Count(run.trace, OpDeleteFile) == (if setup.out.Raise? && r.upload.Ok? then 1 else 0)
  {
    SetupCleansUp(job["file_path"], w.remote);
    FileJobCounts(job, w, OpUpload);
    FileJobCounts(job, w, OpDeleteStore);
    FileJobCounts(job, w, OpDeleteFile);
  }

  /** A deletion in `e`, if any, is of the uploaded file or of the created store. */
  predicate DeletesCreated(e: Event, r: Remote) {
    && (e.DeleteFile? ==> r.upload.Ok? && e.file == r.upload.value)
    && (e.DeleteStore? ==> r.create.Ok? && e.store == r.create.value)
  }

  /**
   A file job deletes only what the remote side handed it: every file
   deletion is of the uploaded file, and every store deletion, the setup's
   and the `finally` clause's alike, is of the created store.
   */
  lemma FileJobTargets(job: Job, w: World)
    requires IsFileJob(job) && Precheck(job, w).None?
    ensures forall e :: e in ProcessJob(job, w).trace ==> DeletesCreated(e, w.remote)
  {
    var model := ChooseModel(job, DefaultFileModel);
    var setup := Setup(job["file_path"], w.remote);
    var attempt := FileTry(job, model, w);
    var tried := FileJob(job, model, w);
    var run := ProcessJob(job, w);
    SetupTargets(job["file_path"], w.remote);
    FileJobPersists(job, w);
    forall e | e in run.trace
      ensures DeletesCreated(e, w.remote)
    {
      var i :| 0 <= i < |run.trace| && run.trace[i] == e;
      if i < |tried.trace| {
        assert e == tried.trace[i];
        TriedTargets(job, model, w, i);
      } else {
        assert e.Save? || e.Sleep?;
      }
    }
  }

  /** The events of the file branch before the write delete only what was created. */
  lemma TriedTargets(job: Job, model: string, w: World, i: nat)
    requires "file_path" in job && w.pathExists
    requires i < |FileJob(job, model, w).trace|
    requires forall e :: e in Setup(job["file_path"], w.remote).trace ==> DeletesCreated(e, w.remote)
    ensures DeletesCreated(FileJob(job, model, w).trace[i], w.remote)
  {
    var setup := Setup(job["file_path"], w.remote);
    var attempt := FileTry(job, model, w);
    var e := FileJob(job, model, w).trace[i];
    if i < |attempt.run.trace| {
      assert e == attempt.run.trace[i];
      if i < |setup.trace| {
        assert e == setup.trace[i];
        assert e in setup.trace;
      } else {
        assert e.FileSearch?;
      }
    } else {
      assert e.DeleteStore? && e.store == attempt.storeId.value;
    }
  }

  /**
   A web job that passes the checks makes one remote call, the web search
   with the chosen model, and touches no file or store.
   */
  lemma WebJobCalls(job: Job, w: World)
    requires IsWebJob(job) && Precheck(job, w).None?
    ensures var run := ProcessJob(job, w);
      && |run.trace| >= 1 && run.trace[0] == WebSearch(job["query"], ChooseModel(job, DefaultWebModel))
      && forall i :: 1 <= i < |run.trace| ==> !IsRemote(run.trace[i])
  {
    var run := ProcessJob(job, w);
    var model := ChooseModel(job, DefaultWebModel);
    var call := WebSearch(job["query"], model);
    if w.remote.search.Ok? {
      var result := Run(Return(Record(job["query"], model, w.remote.search.value, None)), [call]);
      assert run == Persist(job, result, w);
      assert run.trace[..1] == [call];
    }
  }
}

=== FILE: extract.dfy ===
/**
 The row loop of the extraction script's `main`: for each manifest row,
 decide the outcome (no file name, skipped, error, written) and keep the
 three counters. File-system facts and the extracted text are inputs.
 */
module Extract {
  import opened Common
  import opened Clean
  import opened FrontMatter
  import Naming

  datatype Options = Options(skipExisting: bool, addMetadata: bool)

  /**
   A parsed manifest row: `file_name`, `season` and `episode` as optional
   values (absent or NaN is `None`), and the whole row as `row.to_dict()`
   gives it, column by column.
   */
  datatype Row = Row(
    fileName: Option<string>,
    season: Option<int>,
    episode: Option<int>,
    columns: seq<(string, Cell)>)

  /**
   What the file system says about one row: whether the output file already
   exists, whether the PDF exists, the text `extract_text_from_pdf` returns
   (`None` when it fails) and whether writing the output succeeds.
   */
  datatype Disk = Disk(outputExists: bool, pdfExists: bool, extracted: Option<string>, writeOk: bool)

  datatype Entry = Entry(row: Row, disk: Disk)

  datatype RowOutcome =
    | NoFileName
    | Skipped(output: string)
    | PdfMissing(pdf: string)
    | ExtractFailed(pdf: string)
    | WriteFailed(output: string)
    | Written(output: string, text: string)
  {
    predicate IsError() {
      PdfMissing? || ExtractFailed? || WriteFailed?
    }
  }

  /** The three counters of `main`. */
  datatype Counter = ProcessedCount | SkippedCount | ErrorCount

  /** The counter a row outcome moves; a row without a file name moves none. */
  function CounterOf(o: RowOutcome): Option<Counter> {
    if o.NoFileName? then None
    else if o.Skipped? then Some(SkippedCount)
    else if o.Written? then Some(ProcessedCount)
    else Some(ErrorCount)
  }

  datatype Counts = Counts(processed: nat, skipped: nat, errors: nat) {
    function Total(): nat {
      processed + skipped + errors
    }
  }

  /** `not pdf_filename or pd.isna(pdf_filename)` is false. */
  predicate HasFileName(row: Row) {
    row.fileName.Some? && row.fileName.value != ""
  }

  /** The text written for a row whose PDF yielded `raw`. */
  function FinalText(raw: string, row: Row, opts: Options): string {
    var cleaned := CleanText(raw);
    if opts.addMetadata then Inject(cleaned, Metadata(row.columns)) else cleaned
  }

  /** The row gets past the skip check: it names a file and is not skipped. */
  predicate Proceeds(e: Entry, opts: Options) {
    HasFileName(e.row) && !(opts.skipExisting && e.disk.outputExists)
  }

  /** One iteration of the row loop. */
  function ProcessRow(e: Entry, opts: Options): (o: RowOutcome)
    ensures o.NoFileName? <==> !HasFileName(e.row)
    ensures o.Skipped? <==> HasFileName(e.row) && opts.skipExisting && e.disk.outputExists
    ensures o.PdfMissing? <==> Proceeds(e, opts) && !e.disk.pdfExists
    ensures o.ExtractFailed? <==> Proceeds(e, opts) && e.disk.pdfExists && e.disk.extracted.None?
    ensures o.WriteFailed? <==>
      Proceeds(e, opts) && e.disk.pdfExists && e.disk.extracted.Some? && !e.disk.writeOk
    ensures o.Written? <==>
      Proceeds(e, opts) && e.disk.pdfExists && e.disk.extracted.Some? && e.disk.writeOk
    ensures o.Written? ==> o.text == FinalText(e.disk.extracted.value, e.row, opts)
    ensures o.PdfMissing? || o.ExtractFailed? ==> o.pdf == e.row.fileName.value
    ensures o.Skipped? || o.WriteFailed? || o.Written? ==>
      o.output == Naming.OutputName(e.row.fileName.value, e.row.season, e.row.episode)
  {
    var row := e.row;
    if !HasFileName(row) then NoFileName
    else
      var pdf := row.fileName.value;
      var output := Naming.OutputName(pdf, row.season, row.episode);
      if opts.skipExisting && e.disk.outputExists then Skipped(output)
      else if !e.disk.pdfExists then PdfMissing(pdf)
      else if e.disk.extracted.None? then ExtractFailed(pdf)
      else if !e.disk.writeOk then WriteFailed(output)
      else Written(output, FinalText(e.disk.extracted.value, row, opts))
  }

  /** The counter a row outcome increments, if any. */
  function Bump(c: Counts, o: RowOutcome): (c': Counts)
    ensures c'.Total() == c.Total() + (if o.NoFileName? then 0 else 1)
    ensures c'.processed == c.processed + (if CounterOf(o) == Some(ProcessedCount) then 1 else 0)
    ensures c'.skipped == c.skipped + (if CounterOf(o) == Some(SkippedCount) then 1 else 0)
    ensures c'.errors == c.errors + (if CounterOf(o) == Some(ErrorCount) then 1 else 0)
    ensures o.IsError() <==> CounterOf(o) == Some(ErrorCount)
  {
    match o
    case NoFileName => c
    case Skipped(_) => c.(skipped := c.skipped + 1)
    case Written(_, _) => c.(processed := c.processed + 1)
    case _ => c.(errors := c.errors + 1)
  }

  /** How many rows of `entries` have a file name. */
  function Named(entries: seq<Entry>): nat {
    if entries == [] then 0
    else Named(entries[..|entries| - 1]) + (if HasFileName(entries[|entries| - 1].row) then 1 else 0)
  }

  /** How many of `outcomes` move counter `k`. */
  function CountOutcomes(outcomes: seq<RowOutcome>, k: Counter): nat {
    if outcomes == [] then 0
    else
      var last := outcomes[|outcomes| - 1];
      CountOutcomes(outcomes[..|outcomes| - 1], k) + (if CounterOf(last) == Some(k) then 1 else 0)
  }

  /** Appending one outcome moves counter `k` by one exactly when the outcome is of its kind. */
  lemma CountOutcomesSnoc(outcomes: seq<RowOutcome>, o: RowOutcome, k: Counter)
    ensures CountOutcomes(outcomes + [o], k)
      == CountOutcomes(outcomes, k) + (if CounterOf(o) == Some(k) then 1 else 0)
  {
    assert (outcomes + [o])[..|outcomes|] == outcomes;
  }

  /** The rows with a file name are exactly the rows that move some counter. */
  lemma {:induction false} NamedRowsAreCounted(entries: seq<Entry>, outcomes: seq<RowOutcome>, opts: Options)
    requires |outcomes| == |entries|
    requires forall i :: 0 <= i < |entries| ==> outcomes[i] == ProcessRow(entries[i], opts)
    ensures Named(entries) == CountOutcomes(outcomes, ProcessedCount)
                            + CountOutcomes(outcomes, SkippedCount)
                            + CountOutcomes(outcomes, ErrorCount)
  {
    if entries != [] {
      var n := |entries| - 1;
      NamedRowsAreCounted(entries[..n], outcomes[..n], opts);
      var o := outcomes[n];
      assert o.NoFileName? <==> !HasFileName(entries[n].row);
    }
  }

  /**
   The loop of `main` over the manifest rows: the outcome of every row and
   the final counters. Each counter counts the outcomes of its kind, and
   every row with a file name moves exactly one counter.
   */
  method ExtractAll(entries: seq<Entry>, opts: Options) returns (counts: Counts, outcomes: seq<RowOutcome>)
    ensures |outcomes| == |entries|
    ensures forall i :: 0 <= i < |entries| ==> outcomes[i] == ProcessRow(entries[i], opts)
    ensures counts.processed == CountOutcomes(outcomes, ProcessedCount)
    ensures counts.skipped == CountOutcomes(outcomes, SkippedCount)
    ensures counts.errors == CountOutcomes(outcomes, ErrorCount)
    ensures counts.Total() == Named(entries)
  {
    counts := Counts(0, 0, 0);
    outcomes := [];
    var i := 0;
    while i < |entries|
      invariant 0 <= i <= |entries|
      invariant |outcomes| == i
      invariant forall j :: 0 <= j < i ==> outcomes[j] == ProcessRow(entries[j], opts)
      invariant counts.processed == CountOutcomes(outcomes, ProcessedCount)
      invariant counts.skipped == CountOutcomes(outcomes, SkippedCount)
      invariant counts.errors == CountOutcomes(outcomes, ErrorCount)
    {
      var o := ProcessRow(entries[i], opts);
      CountOutcomesSnoc(outcomes, o, ProcessedCount);
      CountOutcomesSnoc(outcomes, o, SkippedCount);
      CountOutcomesSnoc(outcomes, o, ErrorCount);
      counts := Bump(counts, o);
      outcomes := outcomes + [o];
      i := i + 1;
    }
    assert counts.Total() == Named(entries) by {
      NamedRowsAreCounted(entries, outcomes, opts);
    }
  }
}

=== FILE: frontmatter.dfy ===
/**
 `inject_metadata` and the metadata the extraction script passes to it:
 the manifest row without its `checksum` and `file_name` columns and
 without NaN cells, written as a YAML-style front-matter block.
 */
module FrontMatter {
  import opened Common
  import opened Text

  /** A manifest cell: NaN/None, or a value as `str()` renders it. */
  datatype Cell = NA | Val(text: string)

  /** The columns `main` pops from the row before writing front matter. */
  predicate Dropped(key: string) {
    key == "checksum" || key == "file_name"
  }

  /**
   `row.to_dict()`, minus `checksum` and `file_name`, minus NaN cells: the
   remaining entries in column order.
   */
  function Metadata(columns: seq<(string, Cell)>): (meta: seq<(string, string)>)
    ensures forall k, v :: (k, v) in meta <==> (k, Val(v)) in columns && !Dropped(k)
    ensures |meta| <= |columns|
  {
    if columns == [] then []
    else
      var (k, c) := columns[0];
      var head := if !Dropped(k) && c.Val? then [(k, c.text)] else [];
      assert forall k', v' :: (k', Val(v')) in columns <==>
        (k', Val(v')) == columns[0] || (k', Val(v')) in columns[1..];
      head + Metadata(columns[1..])
  }

  /** Filtering keeps column order: it distributes over concatenation. */
  lemma {:induction false} MetadataAppend(a: seq<(string, Cell)>, b: seq<(string, Cell)>)
    ensures Metadata(a + b) == Metadata(a) + Metadata(b)
  {
    if a == [] {
      assert a + b == b;
    } else {
      assert (a + b)[0] == a[0];
      assert (a + b)[1..] == a[1..] + b;
      MetadataAppend(a[1..], b);
    }
  }

  /** The lines of the front-matter block, without their "\n". */
  function FrontLines(meta: seq<(string, string)>): (lines: seq<string>)
    ensures |lines| == |meta| + 2
  {
    ["---"] + seq(|meta|, i requires 0 <= i < |meta| => meta[i].0 + ": " + meta[i].1) + ["---"]
  }

  /** `inject_metadata(cleaned_text, metadata)`. */
  function Inject(body: string, meta: seq<(string, string)>): (r: string)
    ensures |r| >= |body| + 8 && r[|r| - |body|..] == body
    ensures r[..4] == "---\n"
    ensures r[|r| - |body| - 4..|r| - |body|] == "---\n"
  {
    var front := Terminated(FrontLines(meta));
    TerminatedEnds(FrontLines(meta));
    front + body
  }

  lemma {:induction false} TerminatedEnds(lines: seq<string>)
    requires |lines| >= 2 && lines[0] == "---" && lines[|lines| - 1] == "---"
    ensures |Terminated(lines)| >= 8
    ensures Terminated(lines)[..4] == "---\n"
    ensures Terminated(lines)[|Terminated(lines)| - 4..] == "---\n"
  {
    TerminatedLast(lines);
    TerminatedLast(lines[1..]);
  }

  lemma {:induction false} TerminatedLast(lines: seq<string>)
    requires lines != []
    ensures |Terminated(lines)| >= |lines[|lines| - 1]| + 1
    ensures Terminated(lines)[|Terminated(lines)| - |lines[|lines| - 1]| - 1..]
            == lines[|lines| - 1] + "\n"
  {
    if |lines| > 1 {
      TerminatedLast(lines[1..]);
    }
  }

  /**
   When no key or value contains a line break, the result's lines are the
   "---" fence, one "key: value" line per entry in order, the closing fence,
   and then the lines of the body.
   */
  lemma InjectLines(body: string, meta: seq<(string, string)>)
    requires forall i :: 0 <= i < |meta| ==> NoBreak(meta[i].0) && NoBreak(meta[i].1)
    ensures SplitLines(Inject(body, meta)) == FrontLines(meta) + SplitLines(body)
  {
    var lines := FrontLines(meta);
    forall l | l in lines
      ensures NoBreak(l)
    {
      var i :| 0 <= i < |lines| && lines[i] == l;
      if 0 < i < |lines| - 1 {
        var k := meta[i - 1].0;
        var v := meta[i - 1].1;
        assert l == k + ": " + v;
        assert forall c :: c in l ==> c in k || c == ':' || c == ' ' || c in v;
      }
    }
    SplitTerminated(lines, body);
  }

  /**
   How Python reads a double-quoted one-line string literal from source
   text `src`, for the escapes the front matter uses: the characters up to
   the closing quote, with `\n`, `\\` and `\"` decoded, a backslash
   before a line break dropped together with it (a line continuation), and
   any other backslash kept as written (Python's other escapes, such as
   `\t` or `\x41`, are not decoded here). A raw line break before the closing quote, or the end of the
   text, makes the literal unterminated: `None`, a `SyntaxError`.
   */
  function Literal(src: string): (r: Option<string>)
    ensures r.Some? ==> |src| >= 2 && src[0] == '"'
  {
    if src == [] || src[0] != '"' then None else LiteralBody(src[1..])
  }

  function LiteralBody(body: string): (r: Option<string>)
    ensures r.Some? ==> |body| >= 1 && |r.value| < |body|
  {
    if body == [] || body[0] == '\n' then None
    else if body[0] == '"' then Some("")
    else if body[0] == '\\' && |body| >= 2 then
      match LiteralBody(body[2..])
      case None => None
      case Some(rest) => Some(Escape(body[1]) + rest)
    else
      match LiteralBody(body[1..])
      case None => None
      case Some(rest) => Some([body[0]] + rest)
  }

  /** What a backslash followed by `c` stands for inside a literal. */
  function Escape(c: char): (r: string)
    ensures |r| <= 2
    ensures c == '\n' <==> r == []
  {
    if c == 'n' then "\n"
    else if c == '\\' || c == '"' then [c]
    else if c == '\n' then []
    else ['\\', c]
  }

  /** Every line break of `s` before index `k` follows a backslash. */
  predicate ContinuedBreaks(s: string, k: nat)
    requires k <= |s|
  {
    forall i :: 0 <= i < k && s[i] == '\n' ==> 0 < i && s[i - 1] == '\\'
  }

  /**
   A literal that reads is closed by a double quote on the line it opens:
   every line break before the closing quote is a continuation.
   */
  lemma LiteralCloses(src: string)
    requires Literal(src).Some?
    ensures exists k :: 1 <= k < |src| && src[k] == '"' && ContinuedBreaks(src, k)
  {
    var k := LiteralBodyCloses(src[1..]);
    assert src[k + 1] == src[1..][k];
  }

  /** The body of a literal that reads has its closing quote at `k`. */
  lemma {:induction false} LiteralBodyCloses(body: string) returns (k: nat)
    requires LiteralBody(body).Some?
    ensures k < |body| && body[k] == '"'
    ensures forall i :: 0 <= i < k ==> body[i] != '\n' || (0 < i && body[i - 1] == '\\')
  {
    if body[0] == '"' {
      k := 0;
    } else if body[0] == '\\' && |body| >= 2 {
      var j := LiteralBodyCloses(body[2..]);
      k := j + 2;
    } else {
      var j := LiteralBodyCloses(body[1..]);
      k := j + 1;
    }
  }

  /** A line break before any quote or backslash leaves the literal unterminated. */
  lemma {:induction false} RawBreakUnterminated(body: string, k: nat)
    requires k < |body| && body[k] == '\n'
    requires forall i :: 0 <= i < k ==> body[i] != '"' && body[i] != '\\'
    ensures LiteralBody(body) == None
  {
    if k > 0 {
      RawBreakUnterminated(body[1..], k - 1);
    }
  }

  /**
   The fence literal of `inject_metadata` as written spans two source lines,
   so Python rejects it; written with the `\n` escape it reads as the fence
   `Inject` writes at both ends of the block.
   */
  lemma FenceLiteral(body: string, meta: seq<(string, string)>)
    ensures Literal("\"---\n\"") == None
    ensures Literal("\"---\\n\"") == Some("---\n")
    ensures Inject(body, meta)[..4] == Literal("\"---\\n\"").value
  {
    assert LiteralBody("---\\n\"") == Some("---\n") by {
      assert LiteralBody("\"") == Some("");
      assert "\\n\""[2..] == "\"";
      assert ['\n'] + "" == "\n";
      assert LiteralBody("\\n\"") == Some("\n");
      assert "-\\n\""[1..] == "\\n\"";
      assert ['-'] + "\n" == "-\n";
      assert LiteralBody("-\\n\"") == Some("-\n");
      assert "--\\n\""[1..] == "-\\n\"";
      assert ['-'] + "-\n" == "--\n";
      assert LiteralBody("--\\n\"") == Some("--\n");
      assert ['-'] + "--\n" == "---\n";
      assert "---\\n\""[1..] == "--\\n\"";
    }
    assert LiteralBody("---\n\"") == None by {
      assert LiteralBody("\n\"") == None;
      assert LiteralBody("-\n\"") == None;
      assert LiteralBody("--\n\"") == None;
    }
  }
}


=== FILE: lifecycle.dfy ===
/**
 The temporary vector-store lifecycle of the harvester:
 `setup_file_search_vector_store` (upload, create store, add file, poll)
 and `cleanup_vector_store`.

 Every remote call is a step whose reply comes from a per-job script
 (`Remote`); the model returns an outcome and the trace of calls it
 attempted. Sleeps appear as uninterpreted `Sleep` events.
 */
module Lifecycle {
  import opened Common
  import Paths

  /** The exception classes the harvester distinguishes. */
  datatype ErrorKind =
    | APIError | ValueError | FileNotFoundError | KeyError | RuntimeError | AttributeError | OtherError

  datatype Exc = Exc(kind: ErrorKind, msg: string)

  /** The reply of one remote call: a value, or a raised exception. */
  datatype Reply<+T> = Ok(value: T) | Fail(exc: Exc)

  /**
   How a Python call ends: it returns, it raises, or (the poll loop has no
   timeout) it is still polling when the script of statuses runs out.
   */
  datatype Outcome<+T> = Return(value: T) | Raise(exc: Exc) | Stall

  /** A best-effort deletion: done, or failed and ignored. */
  datatype Cleanup = Deleted | Ignored(exc: Exc)

  /**
   The `status` string of a vector-store file, as far as the poll loop tells
   statuses apart: "completed", "failed", or any other value, which the loop
   treats as still in progress ("in_progress", but also "cancelled").
   */
  datatype Status = Completed | Failed | Pending(name: string)

  /** A vector-store file's status; `lastError` is `last_error.message` when set. */
  datatype FileStatus = FileStatus(status: Status, lastError: Option<string>)

  datatype Pause = PollInterval | ApiBackoff | JobPause

  datatype Event =
    | Upload(path: string)
    | CreateStore(name: string)
    | AddFile(store: string, file: string)
    | Retrieve(store: string, file: string)
    | DeleteStore(store: string, result: Cleanup)
    | DeleteFile(file: string, result: Cleanup)
    | WebSearch(query: string, model: string)
    | FileSearch(query: string, store: string, model: string)
    | Save(out: string)
    | Sleep(pause: Pause)

  /** The kind of an event, without its arguments. */
  datatype Op =
    | OpUpload | OpCreateStore | OpAddFile | OpRetrieve | OpDeleteStore | OpDeleteFile
    | OpWebSearch | OpFileSearch | OpSave | OpSleep

  function OpOf(e: Event): Op {
    match e
    case Upload(_) => OpUpload
    case CreateStore(_) => OpCreateStore
    case AddFile(_, _) => OpAddFile
    case Retrieve(_, _) => OpRetrieve
    case DeleteStore(_, _) => OpDeleteStore
    case DeleteFile(_, _) => OpDeleteFile
    case WebSearch(_, _) => OpWebSearch
    case FileSearch(_, _, _) => OpFileSearch
    case Save(_) => OpSave
    case Sleep(_) => OpSleep
  }

  /** A call to the remote API (as opposed to a local write or a sleep). */
  predicate IsRemote(e: Event) {
    !(e.Save? || e.Sleep?)
  }

  function Is(e: Event, op: Op): nat {
    if OpOf(e) == op then 1 else 0
  }

  /** How many events of kind `op` a trace holds. */
  function Count(t: seq<Event>, op: Op): nat {
    if t == [] then 0 else Is(t[0], op) + Count(t[1..], op)
  }

  /** Counting over a trace whose first event is `a`. */
  lemma CountCons(a: Event, t: seq<Event>, op: Op)
    ensures Count([a] + t, op) == Is(a, op) + Count(t, op)
  {
    assert ([a] + t)[1..] == t;
  }

  lemma CountOne(a: Event, op: Op)
    ensures Count([a], op) == Is(a, op)
  {
    CountCons(a, [], op);
    assert [a] + [] == [a];
  }

  lemma CountTwo(a: Event, b: Event, op: Op)
    ensures Count([a, b], op) == Is(a, op) + Is(b, op)
  {
    CountCons(a, [b], op);
    CountOne(b, op);
    assert [a] + [b] == [a, b];
  }

  lemma {:induction false} CountAppend(a: seq<Event>, b: seq<Event>, op: Op)
    ensures Count(a + b, op) == Count(a, op) + Count(b, op)
  {
    if a == [] {
      assert a + b == b;
    } else {
      assert a + b == [a[0]] + (a[1..] + b);
      CountCons(a[0], a[1..] + b, op);
      CountAppend(a[1..], b, op);
    }
  }

  lemma CountSplit(t: seq<Event>, k: nat, op: Op)
    requires k <= |t|
    ensures Count(t, op) == Count(t[..k], op) + Count(t[k..], op)
  {
    assert t == t[..k] + t[k..];
    CountAppend(t[..k], t[k..], op);
  }

  /**
   The replies the remote side gives one job, in call order: upload, store
   creation, adding the file, the successive status retrievals, deleting the
   store, deleting the file, and the search request.
   */
  datatype Remote = Remote(
    upload: Reply<string>,
    create: Reply<string>,
    add: Reply<()>,
    polls: seq<Reply<FileStatus>>,
    deleteStore: Reply<()>,
    deleteFile: Reply<()>,
    search: Reply<string>)

  /** A call's outcome together with the events it produced. */
  datatype Run<+T> = Run(out: Outcome<T>, trace: seq<Event>)

  /** `try: ... except: pass` around a deletion. */
  function Swallow(r: Reply<()>): (c: Cleanup)
    ensures c.Deleted? <==> r.Ok?
  {
    if r.Ok? then Deleted else Ignored(r.exc)
  }

  /**
   A retrieval after which the loop polls again: a status other than
   "completed" and "failed", or an `APIError`.
   */
  predicate Transient(r: Reply<FileStatus>) {
    if r.Ok? then r.value.status.Pending?
    else r.exc.kind == APIError
  }

  /** Index of the first retrieval that ends the loop, or `|polls|` if none does. */
  function Settle(polls: seq<Reply<FileStatus>>): (k: nat)
    ensures k <= |polls|
    ensures forall i :: 0 <= i < k ==> Transient(polls[i])
    ensures k < |polls| ==> !Transient(polls[k])
  {
    if polls == [] || !Transient(polls[0]) then 0 else 1 + Settle(polls[1..])
  }

  /** The message of the `RuntimeError` raised for a "failed" status. */
  function FailureMessage(st: FileStatus): string {
    "File processing failed: " + st.lastError.GetOr("Unknown error")
  }

  /** The exception a loop-ending retrieval raises, if it does not report "completed". */
  function PollError(r: Reply<FileStatus>): Exc {
    if r.Ok? then Exc(RuntimeError, FailureMessage(r.value)) else r.exc
  }

  /** A status still in progress waits one interval; an `APIError` waits twice as long. */
  function PauseAfter(r: Reply<FileStatus>): Pause {
    if r.Ok? then PollInterval else ApiBackoff
  }

  predicate Ready(r: Reply<FileStatus>) {
    r.Ok? && r.value.status.Completed?
  }

  /**
   The `while True` poll loop of `setup_file_search_vector_store`, over the
   scripted replies `polls`. Non-terminal statuses sleep one interval and
   retry; an `APIError` sleeps twice as long and retries; "completed"
   returns the store; "failed" and every other exception delete the store
   and the file (ignoring errors) and raise.
   */
  function Poll(store: string, file: string, polls: seq<Reply<FileStatus>>, r: Remote): (run: Run<string>)
    ensures run.out.Stall? <==> Settle(polls) == |polls|
    ensures run.out.Return? <==> Settle(polls) < |polls| && Ready(polls[Settle(polls)])
    ensures run.out.Return? ==> run.out.value == store
    ensures run.out.Raise? ==> run.out.exc == PollError(polls[Settle(polls)])
  {
    if polls == [] then Run(Stall, [])
    else
      var head := polls[0];
      var probe := Retrieve(store, file);
      if Ready(head) then Run(Return(store), [probe])
      else if !Transient(head) then
        var trace := [probe] + Teardown(store, file, r);
        Run(Raise(PollError(head)), trace)
      else
        var pause := PauseAfter(head);
        var rest := Poll(store, file, polls[1..], r);
        var trace := [probe, Sleep(pause)] + rest.trace;
        Run(rest.out, trace)
  }

  /** How many times the poll loop retrieves the status before it ends. */
  function Retrievals(polls: seq<Reply<FileStatus>>): nat {
    if Settle(polls) < |polls| then Settle(polls) + 1 else |polls|
  }

  /** The poll loop ends with an exception: the settling reply is not "completed". */
  predicate PollFails(polls: seq<Reply<FileStatus>>) {
    Settle(polls) < |polls| && !Ready(polls[Settle(polls)])
  }

  /** One transient reply: retrieve, sleep, and go on with the rest of the script. */
  lemma PollStep(store: string, file: string, polls: seq<Reply<FileStatus>>, r: Remote)
    requires polls != [] && Transient(polls[0])
    ensures var rest := Poll(store, file, polls[1..], r);
      && Poll(store, file, polls, r).out == rest.out
      && Poll(store, file, polls, r).trace == [Retrieve(store, file)] + ([Sleep(PauseAfter(polls[0]))] + rest.trace)
      && Retrievals(polls) == 1 + Retrievals(polls[1..])
      && PollFails(polls) == PollFails(polls[1..])
  {
    var rest := Poll(store, file, polls[1..], r);
    assert Poll(store, file, polls, r).trace == [Retrieve(store, file)] + ([Sleep(PauseAfter(polls[0]))] + rest.trace);
    assert Settle(polls) == 1 + Settle(polls[1..]);
  }

  /**
   The poll loop retrieves the status once per scripted reply up to and
   including the one that ends it, deletes the store and the file once each
   exactly when it raises, and makes no other call.
   */
  lemma {:induction false} PollCounts(store: string, file: string, polls: seq<Reply<FileStatus>>, r: Remote, op: Op)
    requires op != OpSleep
    ensures Count(Poll(store, file, polls, r).trace, op)
      == if op == OpRetrieve then Retrievals(polls)
         else if IsDeletion(op) then (if PollFails(polls) then 1 else 0)
         else 0
  {
    if polls == [] {
    } else if !Transient(polls[0]) {
      PollSettleCount(store, file, polls, r, op);
    } else {
      var run := Poll(store, file, polls, r);
      var rest := Poll(store, file, polls[1..], r);
      var probe := Retrieve(store, file);
      var pause := PauseAfter(polls[0]);
      PollStep(store, file, polls, r);
      PollCounts(store, file, polls[1..], r, op);
      CountCons(probe, [Sleep(pause)] + rest.trace, op);
      CountCons(Sleep(pause), rest.trace, op);
      assert Is(Sleep(pause), op) == 0;
      assert Count(run.trace, op) == Is(probe, op) + Count(rest.trace, op);
    }
  }

  /** The retrieval that ends the loop is its only one; a failure adds the two deletions. */
  lemma PollSettleCount(store: string, file: string, polls: seq<Reply<FileStatus>>, r: Remote, op: Op)
    requires polls != [] && !Transient(polls[0])
    requires op != OpSleep
    ensures Count(Poll(store, file, polls, r).trace, op)
      == if op == OpRetrieve then Retrievals(polls)
         else if IsDeletion(op) then (if PollFails(polls) then 1 else 0)
         else 0
  {
    var probe := Retrieve(store, file);
    assert Settle(polls) == 0;
    if Ready(polls[0]) {
      assert Poll(store, file, polls, r).trace == [probe];
      CountOne(probe, op);
    } else {
      assert Poll(store, file, polls, r).trace == [probe] + Teardown(store, file, r);
      CountCons(probe, Teardown(store, file, r), op);
      TeardownCount(store, file, r, op);
    }
  }

  /** The two best-effort deletions after a failure: the store, then the file. */
  function Teardown(store: string, file: string, r: Remote): (t: seq<Event>)
    ensures |t| == 2 && t[0].DeleteStore? && t[1].DeleteFile?
    ensures t[0].store == store && t[1].file == file
  {
    [DeleteStore(store, Swallow(r.deleteStore)), DeleteFile(file, Swallow(r.deleteFile))]
  }

  lemma TeardownCount(store: string, file: string, r: Remote, op: Op)
    ensures Count(Teardown(store, file, r), op) == if op == OpDeleteStore || op == OpDeleteFile then 1 else 0
  {
    var t := Teardown(store, file, r);
    CountTwo(t[0], t[1], op);
  }

  /** The name given to the temporary store, without its timestamp. */
  function StoreName(path: string): string {
    "temp_vs_" + Paths.Stem(Paths.Name(path))
  }

  /**
   Steps 3 and 4 of the setup: add the uploaded file to the store, then poll.
   A failure to add deletes the store and the file and re-raises.
   */
  function Attach(store: string, file: string, r: Remote): (run: Run<string>)
    ensures |run.trace| >= 1 && run.trace[0] == AddFile(store, file)
    ensures run.out.Return? <==> r.add.Ok? && Settle(r.polls) < |r.polls| && Ready(r.polls[Settle(r.polls)])
    ensures run.out.Stall? <==> r.add.Ok? && Settle(r.polls) == |r.polls|
    ensures run.out.Return? ==> run.out.value == store
    ensures run.out.Raise? ==> run.out.exc == if r.add.Fail? then r.add.exc else PollError(r.polls[Settle(r.polls)])
  {
    var add := AddFile(store, file);
    var rest := if r.add.Fail? then Run(Raise(r.add.exc), Teardown(store, file, r)) else Poll(store, file, r.polls, r);
    var trace := [add] + rest.trace;
    Run(rest.out, trace)
  }

  /**
   Steps 2 to 4 of the setup, once the file is uploaded: create the store
   and attach the file. A failure to create the store deletes the file and
   re-raises.
   */
  function Create(path: string, file: string, r: Remote): (run: Run<string>)
    ensures |run.trace| >= 1 && run.trace[0] == CreateStore(StoreName(path))
    ensures r.create.Fail? ==> run.out == Raise(r.create.exc)
    ensures r.create.Ok? ==> run.out == Attach(r.create.value, file, r).out
  {
    var create := CreateStore(StoreName(path));
    match r.create
    case Fail(e) => Run(Raise(e), [create, DeleteFile(file, Swallow(r.deleteFile))])
    case Ok(store) =>
      var rest := Attach(store, file, r);
      var trace := [create] + rest.trace;
        Run(rest.out, trace)
  }

  /** The upload, the store creation and the attachment all succeeded. */
  predicate Attached(r: Remote) {
    r.upload.Ok? && r.create.Ok? && r.add.Ok?
  }

  /**
   The exception `setup_file_search_vector_store` re-raises: that of the first
   failing step.
   */
  function SetupError(r: Remote): Exc
    requires !Attached(r) || Settle(r.polls) < |r.polls|
  {
    if r.upload.Fail? then r.upload.exc
    else if r.create.Fail? then r.create.exc
    else if r.add.Fail? then r.add.exc
    else PollError(r.polls[Settle(r.polls)])
  }

  /**
   `setup_file_search_vector_store(path)`: upload the file, create a store,
   add the file to it and poll until it is processed. A failure after the
   upload attempts to delete what was created so far and re-raises.
   */
  function Setup(path: string, r: Remote): (run: Run<string>)
    ensures |run.trace| >= 1 && run.trace[0] == Upload(path)
    ensures run.out.Return? <==>
      Attached(r) && Settle(r.polls) < |r.polls| && Ready(r.polls[Settle(r.polls)])
    ensures run.out.Stall? <==> Attached(r) && Settle(r.polls) == |r.polls|
    ensures run.out.Return? ==> run.out.value == r.create.value
    ensures run.out.Raise? ==> run.out.exc == SetupError(r)
  {
    var upload := Upload(path);
    match r.upload
    case Fail(e) => Run(Raise(e), [upload])
    case Ok(file) =>
      var rest := Create(path, file, r);
      var trace := [upload] + rest.trace;
        Run(rest.out, trace)
  }

  /** The setup raises: some step before polling fails, or polling ends in failure. */
  predicate SetupFails(r: Remote) {
    !Attached(r) || PollFails(r.polls)
  }

  predicate IsDeletion(op: Op) {
    op == OpDeleteStore || op == OpDeleteFile
  }

  /** The calls of the setup and its cleanup: everything but the sleeps. */
  predicate SetupOp(op: Op) {
    op == OpUpload || op == OpCreateStore || op == OpAddFile || op == OpRetrieve || IsDeletion(op)
  }

  /** The add-and-poll stage adds once, and deletes the store and the file once each exactly when it raises. */
  lemma AttachCount(store: string, file: string, r: Remote, op: Op)
    requires op != OpSleep
    ensures Count(Attach(store, file, r).trace, op) ==
      if op == OpAddFile then 1
      else if op == OpRetrieve then (if r.add.Ok? then Retrievals(r.polls) else 0)
      else if IsDeletion(op) then (if r.add.Fail? || PollFails(r.polls) then 1 else 0)
      else 0
  {
    var add := AddFile(store, file);
    if r.add.Fail? {
      assert Attach(store, file, r).trace == [add] + Teardown(store, file, r);
      CountCons(add, Teardown(store, file, r), op);
      TeardownCount(store, file, r, op);
    } else {
      var poll := Poll(store, file, r.polls, r);
      assert Attach(store, file, r).trace == [add] + poll.trace;
      CountCons(add, poll.trace, op);
      PollCounts(store, file, r.polls, r, op);
    }
  }

  /** The store-creation stage creates once, then either deletes the file or attaches it. */
  lemma CreateCount(path: string, file: string, r: Remote, op: Op)
    requires op != OpSleep
    ensures Count(Create(path, file, r).trace, op) ==
      if op == OpCreateStore then 1
      else if r.create.Fail? then (if op == OpDeleteFile then 1 else 0)
      else Count(Attach(r.create.value, file, r).trace, op)
  {
    var create := CreateStore(StoreName(path));
    if r.create.Fail? {
      var del := DeleteFile(file, Swallow(r.deleteFile));
      assert Create(path, file, r).trace == [create, del];
      CountTwo(create, del, op);
    } else {
      var attach := Attach(r.create.value, file, r);
      assert Create(path, file, r).trace == [create] + attach.trace;
      CountCons(create, attach.trace, op);
      AttachCount(r.create.value, file, r, op);
    }
  }

  /** The per-kind count of the setup's calls. */
  lemma SetupCount(path: string, r: Remote, op: Op)
    requires SetupOp(op)
    ensures op == OpUpload ==> Count(Setup(path, r).trace, op) == 1
    ensures op == OpCreateStore ==> Count(Setup(path, r).trace, op) == if r.upload.Ok? then 1 else 0
    ensures op == OpAddFile ==>
      Count(Setup(path, r).trace, op) == if r.upload.Ok? && r.create.Ok? then 1 else 0
    ensures op == OpRetrieve ==>
      Count(Setup(path, r).trace, op) == if Attached(r) then Retrievals(r.polls) else 0
    ensures op == OpDeleteFile ==>
      Count(Setup(path, r).trace, op) == if SetupFails(r) && r.upload.Ok? then 1 else 0
    ensures op == OpDeleteStore ==>
      Count(Setup(path, r).trace, op) == if SetupFails(r) && r.upload.Ok? && r.create.Ok? then 1 else 0
  {
    var upload := Upload(path);
    if r.upload.Fail? {
      assert Setup(path, r).trace == [upload];
      CountOne(upload, op);
    } else {
      var rest := Create(path, r.upload.value, r);
      assert Setup(path, r).trace == [upload] + rest.trace;
      CountCons(upload, rest.trace, op);
      UploadedCount(path, r, op);
    }
  }

  /** The per-kind count of the calls after a successful upload. */
  lemma UploadedCount(path: string, r: Remote, op: Op)
    requires r.upload.Ok? && SetupOp(op)
    ensures op == OpUpload ==> Count(Create(path, r.upload.value, r).trace, op) == 0
    ensures op == OpCreateStore ==> Count(Create(path, r.upload.value, r).trace, op) == 1
    ensures op == OpAddFile ==>
      Count(Create(path, r.upload.value, r).trace, op) == if r.create.Ok? then 1 else 0
    ensures op == OpRetrieve ==>
      Count(Create(path, r.upload.value, r).trace, op) == if Attached(r) then Retrievals(r.polls) else 0
    ensures op == OpDeleteFile ==>
      Count(Create(path, r.upload.value, r).trace, op) == if SetupFails(r) then 1 else 0
    ensures op == OpDeleteStore ==>
      Count(Create(path, r.upload.value, r).trace, op) == if SetupFails(r) && r.create.Ok? then 1 else 0
  {
    CreateCount(path, r.upload.value, r, op);
    if r.create.Ok? {
      AttachCount(r.create.value, r.upload.value, r, op);
    }
  }

  /**
   The setup uploads once, and when it fails it deletes exactly what it
   created: the uploaded file if the upload succeeded, and the store if it
   was created. When it does not fail it deletes nothing.
   */
  lemma SetupCleansUp(path: string, r: Remote)
    ensures var run := Setup(path, r);
      && Count(run.trace, OpUpload) == 1
      && Count(run.trace, OpCreateStore) == (if r.upload.Ok? then 1 else 0)
      && Count(run.trace, OpAddFile) == (if r.upload.Ok? && r.create.Ok? then 1 else 0)
      && Count(run.trace, OpRetrieve) == (if Attached(r) then Retrievals(r.polls) else 0)
      && Count(run.trace, OpDeleteFile) == (if run.out.Raise? && r.upload.Ok? then 1 else 0)
      && Count(run.trace, OpDeleteStore) == (if run.out.Raise? && r.upload.Ok? && r.create.Ok? then 1 else 0)
  {
    assert Setup(path, r).out.Raise? <==> SetupFails(r);
    SetupCount(path, r, OpUpload);
    SetupCount(path, r, OpCreateStore);
    SetupCount(path, r, OpAddFile);
    SetupCount(path, r, OpRetrieve);
    SetupCount(path, r, OpDeleteFile);
    SetupCount(path, r, OpDeleteStore);
  }

  /**
   Whether the best-effort deletions succeed never changes how the setup
   ends: their failures are swallowed.
   */
  lemma SetupIgnoresCleanupFailures(path: string, r: Remote, deleteStore: Reply<()>, deleteFile: Reply<()>)
    ensures Setup(path, r).out == Setup(path, r.(deleteStore := deleteStore, deleteFile := deleteFile)).out
  {
    var r' := r.(deleteStore := deleteStore, deleteFile := deleteFile);
    assert Attached(r) == Attached(r') && r.polls == r'.polls;
    assert !Attached(r) || Settle(r.polls) < |r.polls| ==> SetupError(r) == SetupError(r');
  }

  /** A call that names a store: adding the file, retrieving its status, or deleting the store. */
  predicate StoreCall(e: Event) {
    e.AddFile? || e.Retrieve? || e.DeleteStore?
  }

  /**
   `e` is a call the stages after the store's creation may make: no upload
   or creation, and every store and file it names is `store` and `file`.
   */
  predicate Targets(e: Event, store: string, file: string) {
    && !e.Upload? && !e.CreateStore?
    && ((e.AddFile? || e.Retrieve?) ==> e.store == store && e.file == file)
    && (e.DeleteStore? ==> e.store == store)
    && (e.DeleteFile? ==> e.file == file)
  }

  /** The poll loop retrieves, and deletes, only the store and the file it was given. */
  lemma {:induction false} PollTargets(store: string, file: string, polls: seq<Reply<FileStatus>>, r: Remote)
    ensures forall e :: e in Poll(store, file, polls, r).trace ==> Targets(e, store, file)
  {
    if polls != [] && Transient(polls[0]) {
      PollStep(store, file, polls, r);
      PollTargets(store, file, polls[1..], r);
    }
  }

  /** The add-and-poll stage touches only the store and the file it was given. */
  lemma AttachTargets(store: string, file: string, r: Remote)
    ensures forall e :: e in Attach(store, file, r).trace ==> Targets(e, store, file)
  {
    PollTargets(store, file, r.polls, r);
  }

  /**
   After the upload of `file`, every file deletion is of `file`, and a call
   that names a store happens only once the store was created, and names it.
   */
  lemma CreateTargets(path: string, file: string, r: Remote)
    ensures forall e :: e in Create(path, file, r).trace ==> !e.Upload?
    ensures forall e :: e in Create(path, file, r).trace ==> e.CreateStore? ==> e.name == StoreName(path)
    ensures forall e :: e in Create(path, file, r).trace ==> e.DeleteFile? ==> e.file == file
    ensures forall e :: e in Create(path, file, r).trace ==> StoreCall(e) ==> r.create.Ok?
    ensures r.create.Ok? ==>
      forall e :: e in Create(path, file, r).trace && !e.CreateStore? ==> Targets(e, r.create.value, file)
  {
    var create := CreateStore(StoreName(path));
    if r.create.Ok? {
      var rest := Attach(r.create.value, file, r);
      AttachTargets(r.create.value, file, r);
      assert Create(path, file, r).trace == [create] + rest.trace;
    } else {
      assert Create(path, file, r).trace == [create, DeleteFile(file, Swallow(r.deleteFile))];
    }
  }

  /**
   The setup uploads `path`, creates the store under its name, and every
   later call names what the remote side handed back: a file deletion is of
   the uploaded file, a store deletion of the created store, and the add and
   the retrievals name both.
   */
  lemma SetupTargets(path: string, r: Remote)
    ensures forall e :: e in Setup(path, r).trace ==>
      && (e.Upload? ==> e.path == path)
      && (e.CreateStore? ==> e.name == StoreName(path))
      && (e.DeleteFile? ==> r.upload.Ok? && e.file == r.upload.value)
      && (e.DeleteStore? ==> r.create.Ok? && e.store == r.create.value)
      && ((e.AddFile? || e.Retrieve?) ==>
            r.upload.Ok? && r.create.Ok? && e.store == r.create.value && e.file == r.upload.value)
  {
    if r.upload.Ok? {
      var rest := Create(path, r.upload.value, r);
      CreateTargets(path, r.upload.value, r);
      assert Setup(path, r).trace == [Upload(path)] + rest.trace;
    } else {
      assert Setup(path, r).trace == [Upload(path)];
    }
  }

  /**
   Two statuses in progress (one of them an API error) and then "completed":
   three retrievals and the store is returned. A "failed" status raises a
   `RuntimeError` carrying the reported message.
   */
  lemma PollExamples(store: string, file: string, r: Remote)
    ensures var polls := [Ok(FileStatus(Pending("in_progress"), None)), Fail(Exc(APIError, "rate limited")),
                          Ok(FileStatus(Completed, None))];
      && Poll(store, file, polls, r).out == Return(store)
      && Count(Poll(store, file, polls, r).trace, OpRetrieve) == 3
    ensures Poll(store, file, [Ok(FileStatus(Failed, Some("bad format")))], r).out
      == Raise(Exc(RuntimeError, "File processing failed: bad format"))
  {
    var polls: seq<Reply<FileStatus>> := [Ok(FileStatus(Pending("in_progress"), None)), Fail(Exc(APIError, "rate limited")),
                                          Ok(FileStatus(Completed, None))];
    assert Settle(polls[2..]) == 0;
    assert Settle(polls[1..]) == 1;
    assert Settle(polls) == 2;
    PollCounts(store, file, polls, r, OpRetrieve);
    var failed: seq<Reply<FileStatus>> := [Ok(FileStatus(Failed, Some("bad format")))];
    assert Settle(failed) == 0;
  }

  /** `cleanup_vector_store(id)`: one deletion attempt, whose failure is ignored. */
  function CleanupStore(store: string, r: Remote): (run: Run<()>)
    ensures run.out == Return(())
    ensures |run.trace| == 1 && run.trace[0].DeleteStore? && run.trace[0].store == store
    ensures run.trace[0].result.Deleted? <==> r.deleteStore.Ok?
    ensures run.trace[0].result.Ignored? ==> run.trace[0].result.exc == r.deleteStore.exc
  {
    Run(Return(()), [DeleteStore(store, Swallow(r.deleteStore))])
  }
}

=== FILE: naming.dfy ===
/**
 The output file name the extraction script chooses for a manifest row:
 `f"S{int(s):02d}E{int(e):02d}.txt"` when the row has a season and an
 episode, otherwise the PDF name's stem plus ".txt".
 */
module Naming {
  import opened Common
  import opened Text
  import Paths

  predicate IsDigit(c: char) {
    '0' <= c <= '9'
  }

  predicate AllDigits(s: string) {
    forall i :: 0 <= i < |s| ==> IsDigit(s[i])
  }

  function DigitChar(d: nat): (c: char)
    requires d < 10
    ensures IsDigit(c)
  {
    (d + '0' as int) as char
  }

  function DigitValue(c: char): (d: nat)
    requires IsDigit(c)
    ensures d < 10 && DigitChar(d) == c
  {
    c as int - '0' as int
  }

  /** Decimal digits of `n`, most significant first, without leading zeros. */
  function Digits(n: nat): (s: string)
    ensures |s| >= 1 && AllDigits(s)
    ensures s[0] == '0' <==> n == 0
    ensures n < 10 <==> |s| == 1
  {
    if n < 10 then [DigitChar(n)] else Digits(n / 10) + [DigitChar(n % 10)]
  }

  /** The value of a string of decimal digits (leading zeros allowed). */
  function ParseDigits(s: string): nat
    requires AllDigits(s)
  {
    if s == [] then 0 else 10 * ParseDigits(s[..|s| - 1]) + DigitValue(s[|s| - 1])
  }

  lemma {:induction false} DigitsRoundTrip(n: nat)
    ensures ParseDigits(Digits(n)) == n
  {
    if n >= 10 {
      var s := Digits(n);
      assert s[..|s| - 1] == Digits(n / 10);
      DigitsRoundTrip(n / 10);
    }
  }

  /** Leading zeros do not change a digit string's value. */
  lemma ParseLeadingZero(s: string)
    requires AllDigits(s)
    ensures ParseDigits("0" + s) == ParseDigits(s)
    decreases |s|
  {
    if s != [] {
      assert ("0" + s)[..|s|] == "0" + s[..|s| - 1];
      ParseLeadingZero(s[..|s| - 1]);
    }
  }

  /** An optional '-' followed by at least one digit: what `:02d` produces. */
  predicate SignedText(s: string) {
    if |s| > 0 && s[0] == '-' then |s| > 1 && AllDigits(s[1..]) else |s| > 0 && AllDigits(s)
  }

  function ParseSigned(s: string): int
    requires SignedText(s)
  {
    if s[0] == '-' then -(ParseDigits(s[1..]) as int) else ParseDigits(s)
  }

  /**
   `f"{n:02d}"`: at least two characters, zero-padded after the sign;
   wider numbers are written in full, never truncated.
   */
  function Pad2(n: int): (s: string)
    ensures |s| >= 2 && SignedText(s)
    ensures 'E' !in s
    ensures n >= 0 ==> AllDigits(s)
    ensures 0 <= n < 10 ==> |s| == 2 && s[0] == '0'
    ensures n >= 10 ==> s[0] != '0'
    ensures n < 0 ==> s[0] == '-' && s[1] != '0'
  {
    if n < 0 then "-" + Digits(-n)
    else if n < 10 then "0" + Digits(n)
    else Digits(n)
  }

  /** Reading a padded number back gives the number. */
  lemma Pad2RoundTrip(n: int)
    ensures ParseSigned(Pad2(n)) == n
  {
    if n < 0 {
      NegativeRoundTrip(n);
    } else if n < 10 {
      SingleDigitRoundTrip(n);
    } else {
      DigitsRoundTrip(n);
    }
  }

  lemma NegativeRoundTrip(n: int)
    requires n < 0
    ensures ParseSigned(Pad2(n)) == n
  {
    var d := Digits(-n);
    assert ("-" + d)[1..] == d;
    DigitsRoundTrip(-n);
  }

  lemma SingleDigitRoundTrip(n: int)
    requires 0 <= n < 10
    ensures ParseSigned(Pad2(n)) == n
  {
    DigitsRoundTrip(n);
    ParseLeadingZero(Digits(n));
  }

  /** `f"S{s:02d}E{e:02d}.txt"`. */
  function EpisodeName(season: int, episode: int): (name: string)
    ensures |name| >= 10 && name[0] == 'S' && name[|name| - 4..] == ".txt"
  {
    "S" + Pad2(season) + "E" + Pad2(episode) + ".txt"
  }

  /** Reads a season and an episode back out of an `SxxEyy.txt` name. */
  function ParseEpisodeName(name: string): Option<(int, int)> {
    if |name| < 5 || name[0] != 'S' || name[|name| - 4..] != ".txt" then None
    else
      var mid := name[1..|name| - 4];
      var k := Find(mid, 'E');
      if k == |mid| then None
      else
        var a := mid[..k];
        var b := mid[k + 1..];
        if SignedText(a) && SignedText(b) then Some((ParseSigned(a), ParseSigned(b))) else None
  }

  /** The episode name determines the season and the episode. */
  lemma EpisodeNameRoundTrip(season: int, episode: int)
    ensures ParseEpisodeName(EpisodeName(season, episode)) == Some((season, episode))
  {
    var name := EpisodeName(season, episode);
    var a := Pad2(season);
    var b := Pad2(episode);
    var mid := name[1..|name| - 4];
    assert mid == a + "E" + b;
    assert Find(mid, 'E') == |a| by {
      forall i | 0 <= i < |a|
        ensures mid[i] != 'E'
      {
        assert mid[i] == a[i] && a[i] in a;
      }
      assert mid[|a|] == 'E';
      FindUnique(mid, 'E', |a|);
    }
    assert mid[..|a|] == a && mid[|a| + 1..] == b;
    Pad2RoundTrip(season);
    Pad2RoundTrip(episode);
  }

  /**
   The output file name for a manifest row whose `file_name` is `fileName`:
   the episode name when both season and episode are present, otherwise the
   stem of the PDF's file name plus ".txt".
   */
  function OutputName(fileName: string, season: Option<int>, episode: Option<int>): (name: string)
    ensures |name| >= 4 && name[|name| - 4..] == ".txt"
    ensures season.Some? && episode.Some? ==>
      ParseEpisodeName(name) == Some((season.value, episode.value))
    ensures !(season.Some? && episode.Some?) ==>
      name[..|name| - 4] == Paths.Stem(Paths.Name(fileName))
  {
    if season.Some? && episode.Some? then
      EpisodeNameRoundTrip(season.value, episode.value);
      EpisodeName(season.value, episode.value)
    else
      var stem := Paths.Stem(Paths.Name(fileName));
      assert (stem + ".txt")[..|stem|] == stem;
      stem + ".txt"
  }

  lemma EpisodeNameExamples()
    ensures EpisodeName(1, 5) == "S01E05.txt"
    ensures EpisodeName(12, 123) == "S12E123.txt"
    ensures Pad2(0) == "00" && Pad2(-3) == "-3"
  {
  }
}

=== FILE: paths.dfy ===
/**
 The two `pathlib.PurePosixPath` properties the scripts use: `name` (the
 final component) and `stem` (the name without its last suffix).
 */
module Paths {
  import opened Text

  /** Index of the last occurrence of `c` in `s`, or -1. */
  function LastIndex(s: string, c: char): (i: int)
    ensures -1 <= i < |s|
    ensures i >= 0 ==> s[i] == c
    ensures forall j :: i < j < |s| ==> s[j] != c
  {
    if s == [] then -1
    else if s[|s| - 1] == c then |s| - 1
    else LastIndex(s[..|s| - 1], c)
  }

  /** The last occurrence is the only index that meets `LastIndex`'s description. */
  lemma {:induction false} LastIndexUnique(s: string, c: char, i: int)
    requires -1 <= i < |s|
    requires i >= 0 ==> s[i] == c
    requires forall j :: i < j < |s| ==> s[j] != c
    ensures LastIndex(s, c) == i
  {
    if s != [] && s[|s| - 1] != c {
      var init := s[..|s| - 1];
      assert forall j :: i < j < |init| ==> init[j] == s[j];
      LastIndexUnique(init, c, i);
    }
  }

  /** The piece after the last '/', as a component list: empty when it is "" or ".". */
  function LastPiece(s: string): seq<string> {
    var piece := s[LastIndex(s, '/') + 1..];
    if piece == "" || piece == "." then [] else [piece]
  }

  /** The piece after the last '/' is a plain name when it is kept. */
  lemma LastPieceIsPlain(s: string)
    ensures forall p :: p in LastPiece(s) ==> PlainName(p)
  {
    NoSlashAfterLast(s);
  }

  /**
   The components pathlib keeps: the pieces between '/' other than "" and
   ".", taken from the end.
   */
  function Components(s: string): seq<string>
    decreases |s|
  {
    var k := LastIndex(s, '/');
    if k < 0 then LastPiece(s) else Components(s[..k]) + LastPiece(s)
  }

  /** A single path component as pathlib keeps it. */
  predicate PlainName(n: string) {
    n != "" && n != "." && forall i :: 0 <= i < |n| ==> n[i] != '/'
  }

  /** Nothing after the last '/' is a '/'. */
  lemma NoSlashAfterLast(s: string)
    ensures var piece := s[LastIndex(s, '/') + 1..]; forall i :: 0 <= i < |piece| ==> piece[i] != '/'
  {
    var k := LastIndex(s, '/');
    var piece := s[k + 1..];
    forall i | 0 <= i < |piece|
      ensures piece[i] != '/'
    {
      assert piece[i] == s[k + 1 + i];
    }
  }

  /** Every component kept is a plain name. */
  lemma {:induction false} ComponentsArePlain(s: string)
    ensures forall p :: p in Components(s) ==> PlainName(p)
    decreases |s|
  {
    var k := LastIndex(s, '/');
    LastPieceIsPlain(s);
    if k >= 0 {
      ComponentsArePlain(s[..k]);
    }
  }

  /** `PurePosixPath(s).name`: the last kept component, "" for "", "." or "/". */
  function Name(s: string): (r: string)
    ensures r == "" || PlainName(r)
  {
    var parts := Components(s);
    ComponentsArePlain(s);
    if parts == [] then "" else assert parts[|parts| - 1] in parts; parts[|parts| - 1]
  }

  /** Appending "/" and a plain name adds exactly that component. */
  lemma ComponentsAppend(dir: string, n: string)
    requires PlainName(n)
    ensures Components(dir + "/" + n) == Components(dir) + [n]
  {
    var s := dir + "/" + n;
    assert LastIndex(s, '/') == |dir| by {
      forall j | |dir| < j < |s|
        ensures s[j] != '/'
      {
        assert s[j] == n[j - |dir| - 1];
      }
      LastIndexUnique(s, '/', |dir|);
    }
    assert s[..|dir|] == dir;
    assert s[|dir| + 1..] == n;
    assert LastPiece(s) == [n];
  }

  /** The name of `dir/n` is `n`, whatever the directory part. */
  lemma NameOfJoin(dir: string, n: string)
    requires PlainName(n)
    ensures Name(dir + "/" + n) == n
  {
    ComponentsAppend(dir, n);
  }

  /**
   `PurePosixPath(name).stem` for a single component: the last suffix (a '.'
   that is neither the first nor the last character, and what follows it)
   is removed; a name without such a suffix is kept whole.
   */
  function Stem(name: string): (r: string)
    ensures |r| <= |name| && name[..|r|] == r
    ensures |r| < |name| ==>
      && 0 < |r| < |name| - 1
      && name[|r|] == '.'
      && forall j :: |r| < j < |name| ==> name[j] != '.'
    ensures |r| == |name| ==>
      || (|name| > 0 && name[|name| - 1] == '.')
      || forall j :: 0 < j < |name| ==> name[j] != '.'
  {
    var i := LastIndex(name, '.');
    if 0 < i < |name| - 1 then name[..i] else name
  }
}

=== FILE: runner.dfy ===
/**
 The job loop of the harvester's `cli`: announce each job, run it inside a
 `try`, count the failures, and go on with the next job. Each failure is
 reported by the first `except` clause whose class matches.

 The announcement (`job.get(...)` and `.upper()` on the job's type) runs
 before the `try`, so an entry of the jobs list that is not a mapping, or a
 mapping whose type is not a string, raises out of the loop and ends the
 run. `RunJobs` is the loop as written; `RunJobsContained` is the loop with
 the announcement inside the `try`.
 */
module Runner {
  import opened Common
  import opened Lifecycle
  import opened Dispatch
  import Text

  /** The `except` clauses of the job loop, in the order they are tried. */
  datatype Handler = InputMissing | Configuration | Api | Unexpected

  /**
   The clause that catches an exception: `FileNotFoundError`, then
   `ValueError`, then `APIError`, then any `Exception`. A `KeyError` is not a
   `ValueError`, so a missing key is an unexpected error.
   */
  function HandlerFor(e: Exc): (h: Handler)
    ensures h == InputMissing <==> e.kind == FileNotFoundError
    ensures h == Configuration <==> e.kind == ValueError
    ensures h == Api <==> e.kind == APIError
    ensures h == Unexpected <==> e.kind in {KeyError, RuntimeError, AttributeError, OtherError}
  {
    match e.kind
    case FileNotFoundError => InputMissing
    case ValueError => Configuration
    case APIError => Api
    case _ => Unexpected
  }

  /**
   One item of the YAML jobs list: a mapping with string values, an item
   that is not a mapping (`- null`, a scalar, a list), or a mapping whose
   `type` is present but not a string (`type:` with no value, `type: 1`).
   `typeName` is the Python class name of the offending value.
   */
  datatype Entry =
    | Mapping(job: Job)
    | NotMapping(typeName: string)
    | NonTextType(typeName: string)

  /** An entry of the jobs list and the world its job runs in. */
  datatype Task = Task(entry: Entry, world: World)

  /**
   The exception the announcement of an entry raises, if any: `.get` on an
   item that is not a mapping, or `.upper()` on a type that is not a string.
   */
  function Announce(e: Entry): (x: Option<Exc>)
    ensures x.None? <==> e.Mapping?
    ensures x.Some? ==> x.value.kind == AttributeError
  {
    match e
    case Mapping(_) => None
    case NotMapping(t) => Some(Exc(AttributeError, "'" + t + "' object has no attribute 'get'"))
    case NonTextType(t) => Some(Exc(AttributeError, "'" + t + "' object has no attribute 'upper'"))
  }

  /** What the loop records about a job that ended. */
  datatype JobLog = Saved(record: Record) | Failed(handler: Handler, exc: Exc)

  /** The log entry of a job that returned or raised. */
  function LogOf(o: Outcome<Record>): (l: JobLog)
    requires !o.Stall?
    ensures l.Saved? <==> o.Return?
    ensures l.Failed? ==> l.exc == o.exc && l.handler == HandlerFor(o.exc)
  {
    if o.Return? then Saved(o.value) else JobLog.Failed(HandlerFor(o.exc), o.exc)
  }

  /**
   How one iteration of the loop ends: the job is logged, or it polls
   forever, or an exception escapes the loop.
   */
  datatype Step = Done(log: JobLog) | Hang | Abort(exc: Exc)

  /** One iteration of the loop as written: the announcement precedes the `try`. */
  function StepOf(t: Task): (s: Step)
    ensures s.Abort? <==> !t.entry.Mapping?
    ensures s.Abort? ==> Announce(t.entry) == Some(s.exc)
    ensures s.Hang? <==> t.entry.Mapping? && ProcessJob(t.entry.job, t.world).out.Stall?
    ensures s.Done? ==> t.entry.Mapping? && s.log == LogOf(ProcessJob(t.entry.job, t.world).out)
  {
    match t.entry
    case Mapping(job) =>
      var run := ProcessJob(job, t.world);
      if run.out.Stall? then Hang else Done(LogOf(run.out))
    case _ => Abort(Announce(t.entry).value)
  }

  /**
   One iteration with the announcement inside the `try`: its exception is
   caught by the last clause and counted like any other failure.
   */
  function ContainedStepOf(t: Task): (s: Step)
    ensures !s.Abort?
    ensures t.entry.Mapping? ==> s == StepOf(t)
    ensures !t.entry.Mapping? ==> s == Done(JobLog.Failed(Unexpected, Announce(t.entry).value))
  {
    match StepOf(t)
    case Abort(e) => Done(LogOf(Raise(e)))
    case s => s
  }

  function Steps(tasks: seq<Task>): (steps: seq<Step>)
    ensures |steps| == |tasks|
    ensures forall i :: 0 <= i < |tasks| ==> steps[i] == StepOf(tasks[i])
  {
    seq(|tasks|, i requires 0 <= i < |tasks| => StepOf(tasks[i]))
  }

  function ContainedSteps(tasks: seq<Task>): (steps: seq<Step>)
    ensures |steps| == |tasks|
    ensures forall i :: 0 <= i < |tasks| ==> steps[i] == ContainedStepOf(tasks[i])
  {
    seq(|tasks|, i requires 0 <= i < |tasks| => ContainedStepOf(tasks[i]))
  }

  /** Index of the first iteration that does not log its job, or `|steps|`. */
  function FirstStop(steps: seq<Step>): (k: nat)
    ensures k <= |steps|
    ensures forall i :: 0 <= i < k ==> steps[i].Done?
    ensures k < |steps| ==> !steps[k].Done?
  {
    if steps == [] || !steps[0].Done? then 0 else 1 + FirstStop(steps[1..])
  }

  /** How many of the logged jobs failed. */
  function Failures(log: seq<JobLog>): nat {
    if log == [] then 0 else Failures(log[..|log| - 1]) + (if log[|log| - 1].Failed? then 1 else 0)
  }

  /** At most every job fails, and none fails exactly when every job was saved. */
  lemma {:induction false} FailuresBound(log: seq<JobLog>)
    ensures Failures(log) <= |log|
    ensures Failures(log) == 0 <==> forall i :: 0 <= i < |log| ==> log[i].Saved?
  {
    if log != [] {
      var n := |log| - 1;
      FailuresBound(log[..n]);
      assert forall i :: 0 <= i < n ==> log[..n][i] == log[i];
    }
  }

  /** Why the loop stopped. */
  datatype Halt = Finished | Hung | Aborted(exc: Exc)

  /**
   The loop over iterations whose ends are `steps`, in order: it logs every
   iteration up to the first that does not end in a log entry, and
   `failures` counts the logged failures.
   */
  method Tally(steps: seq<Step>) returns (failures: nat, log: seq<JobLog>, halt: Halt)
    ensures |log| == FirstStop(steps)
    ensures forall i :: 0 <= i < |log| ==> log[i] == steps[i].log
    ensures halt.Finished? <==> |log| == |steps|
    ensures halt.Hung? <==> |log| < |steps| && steps[|log|].Hang?
    ensures halt.Aborted? ==> |log| < |steps| && steps[|log|] == Abort(halt.exc)
    ensures failures == Failures(log)
  {
    failures := 0;
    log := [];
    var i := 0;
    while i < |steps|
      invariant 0 <= i <= |steps|
      invariant |log| == i
      invariant forall j :: 0 <= j < i ==> steps[j].Done? && log[j] == steps[j].log
      invariant failures == Failures(log)
    {
      match steps[i]
      case Hang =>
        halt := Hung;
        StopAt(steps, i);
        return;
      case Abort(e) =>
        halt := Aborted(e);
        StopAt(steps, i);
        return;
      case Done(entry) =>
        var before := log;
        log := log + [entry];
        assert log[..i] == before;
        if entry.Failed? {
          failures := failures + 1;
        }
        i := i + 1;
    }
    halt := Finished;
    StopAt(steps, i);
  }

  /** `FirstStop` is the index of the first iteration that is not logged. */
  lemma {:induction false} StopAt(steps: seq<Step>, k: nat)
    requires k <= |steps|
    requires forall i :: 0 <= i < k ==> steps[i].Done?
    requires k < |steps| ==> !steps[k].Done?
    ensures FirstStop(steps) == k
  {
    if k > 0 {
      StopAt(steps[1..], k - 1);
    }
  }

  /**
   `cli`'s job loop over `tasks`, as written. Every job is attempted in
   order, whatever the earlier ones did, until one polls forever or an
   entry's announcement raises; `failures` counts the jobs that raised.
   */
  method RunJobs(tasks: seq<Task>) returns (failures: nat, log: seq<JobLog>, halt: Halt)
    ensures |log| == FirstStop(Steps(tasks))
    ensures forall i :: 0 <= i < |log| ==>
      tasks[i].entry.Mapping? && log[i] == LogOf(ProcessJob(tasks[i].entry.job, tasks[i].world).out)
    ensures halt.Finished? <==> |log| == |tasks|
    ensures halt.Hung? <==>
      |log| < |tasks| && tasks[|log|].entry.Mapping?
      && ProcessJob(tasks[|log|].entry.job, tasks[|log|].world).out.Stall?
    ensures halt.Aborted? ==> |log| < |tasks| && Announce(tasks[|log|].entry) == Some(halt.exc)
    ensures failures == Failures(log)
  {
    var steps := Steps(tasks);
    failures, log, halt := Tally(steps);
    assert forall i :: 0 <= i < |log| ==> steps[i] == StepOf(tasks[i]);
    if |log| < |tasks| {
      assert steps[|log|] == StepOf(tasks[|log|]);
    }
  }

  /**
   The loop with the announcement inside the `try`: only a job that polls
   forever stops it, and a malformed entry is counted as an unexpected
   failure.
   */
  method RunJobsContained(tasks: seq<Task>) returns (failures: nat, log: seq<JobLog>, halt: Halt)
    ensures |log| == FirstStop(ContainedSteps(tasks))
    ensures !halt.Aborted?
    ensures halt.Finished? <==> |log| == |tasks|
    ensures halt.Hung? ==>
      |log| < |tasks| && tasks[|log|].entry.Mapping?
      && ProcessJob(tasks[|log|].entry.job, tasks[|log|].world).out.Stall?
    ensures forall i :: 0 <= i < |log| ==> log[i] == ContainedStepOf(tasks[i]).log
    ensures forall i :: 0 <= i < |log| && !tasks[i].entry.Mapping? ==>
      log[i] == JobLog.Failed(Unexpected, Announce(tasks[i].entry).value)
    ensures failures == Failures(log)
  {
    var steps := ContainedSteps(tasks);
    failures, log, halt := Tally(steps);
    assert forall i :: 0 <= i < |log| ==> steps[i] == ContainedStepOf(tasks[i]);
    if |log| < |tasks| {
      assert steps[|log|] == ContainedStepOf(tasks[|log|]);
    }
  }

  /**
   A `null` item ahead of a job that ends: the loop as written stops at the
   first item and never attempts the job; with the announcement inside the
   `try`, both items are logged.
   */
  lemma MalformedEntryStopsRun(job: Job, w: World)
    requires !ProcessJob(job, w).out.Stall?
    ensures var tasks := [Task(NotMapping("NoneType"), w), Task(Mapping(job), w)];
      && FirstStop(Steps(tasks)) == 0
      && FirstStop(ContainedSteps(tasks)) == 2
  {
    var tasks := [Task(NotMapping("NoneType"), w), Task(Mapping(job), w)];
    assert Steps(tasks)[0].Abort?;
    var contained := ContainedSteps(tasks);
    assert contained[0].Done? && contained[1].Done?;
    StopAt(contained, 2);
  }
  /**
   Three web jobs whose searches and writes succeed, the second without a
   `query`: the loop logs all three, saves the first and the third, and
   counts one failure, the second's `KeyError`, under the last clause.
   */
  lemma MissingQueryIsCounted(w: World)
    requires w.remote.search.Ok? && w.save.Ok?
    ensures var tasks := [
        Task(Mapping(map["type" := "web", "query" := "q1", "out" := "a.json"]), w),
        Task(Mapping(map["type" := "web", "out" := "b.json"]), w),
        Task(Mapping(map["type" := "web", "query" := "q3", "out" := "c.json"]), w)];
      var steps := Steps(tasks);
      && FirstStop(steps) == 3
      && steps[0].log.Saved? && steps[0].log.record.query == "q1"
      && steps[1].log == JobLog.Failed(Unexpected, Missing("query"))
      && steps[2].log.Saved? && steps[2].log.record.query == "q3"
      && Failures([steps[0].log, steps[1].log, steps[2].log]) == 1
  {
    var j1 := map["type" := "web", "query" := "q1", "out" := "a.json"];
    var j2 := map["type" := "web", "out" := "b.json"];
    var j3 := map["type" := "web", "query" := "q3", "out" := "c.json"];
    assert Text.Lower("web") == "web";
    var tasks := [Task(Mapping(j1), w), Task(Mapping(j2), w), Task(Mapping(j3), w)];
    var steps := Steps(tasks);
    SavedStep(j1, w);
    SavedStep(j3, w);
    PrecheckDecides(j2, w);
    StopAt(steps, 3);
    var log := [steps[0].log, steps[1].log, steps[2].log];
    assert steps[1].log == JobLog.Failed(Unexpected, Missing("query"));
    assert [steps[0].log, steps[1].log][..1] == [steps[0].log];
    assert Failures([steps[0].log]) == 0;
    assert Failures([steps[0].log, steps[1].log]) == 1;
    assert log[..2] == [steps[0].log, steps[1].log];
  }

  /** A web job with a query and an output path is saved when its search and write succeed. */
  lemma SavedStep(job: Job, w: World)
    requires IsWebJob(job) && "query" in job && "out" in job
    requires w.remote.search.Ok? && w.save.Ok?
    ensures StepOf(Task(Mapping(job), w)).Done?
    ensures StepOf(Task(Mapping(job), w)).log.Saved?
    ensures StepOf(Task(Mapping(job), w)).log.record.query == job["query"]
  {
  }

  /**
   A web job whose search raises an `APIError` is logged under the API
   clause, with the search's exception.
   */
  lemma SearchFailureIsApi(job: Job, w: World)
    requires IsWebJob(job) && "query" in job
    requires w.remote.search.Fail? && w.remote.search.exc.kind == APIError
    ensures StepOf(Task(Mapping(job), w)) == Done(JobLog.Failed(Api, w.remote.search.exc))
  {
  }
}

=== FILE: text.dfy ===
/**
 The handful of Python `str` primitives the extraction script relies on:
 `str.isspace`, `str.strip`, `str.splitlines`, `"\n".join` and (for the
 harvester's job type) `str.lower`.

 Whitespace and line boundaries are the exact code-point sets Python uses;
 `lower` is restricted to ASCII letters.
 */
module Text {

  /** Python's `str.isspace` for one code point. */
  predicate IsSpace(c: char) {
    || ('\t' <= c <= '\r')          // \t \n \v \f \r
    || ('\U{1C}' <= c <= ' ')       // the four ASCII separators and the space
    || c == '\U{85}' || c == '\U{A0}' || c == '\U{1680}'
    || ('\U{2000}' <= c <= '\U{200A}')
    || c == '\U{2028}' || c == '\U{2029}' || c == '\U{202F}'
    || c == '\U{205F}' || c == '\U{3000}'
  }

  /** A code point at which `str.splitlines` ends a line. */
  predicate IsLineBreak(c: char) {
    || ('\n' <= c <= '\r')          // \n \v \f \r
    || ('\U{1C}' <= c <= '\U{1E}')
    || c == '\U{85}' || c == '\U{2028}' || c == '\U{2029}'
  }

  predicate NoBreak(s: string) {
    forall c :: c in s ==> !IsLineBreak(c)
  }

  /** Index of the first line break of `s`, or `|s|` when there is none. */
  function FirstBreak(s: string): (k: nat)
    ensures k <= |s|
    ensures forall i :: 0 <= i < k ==> !IsLineBreak(s[i])
    ensures k < |s| ==> IsLineBreak(s[k])
  {
    if s == [] then 0
    else if IsLineBreak(s[0]) then 0
    else 1 + FirstBreak(s[1..])
  }

  /**
   `str.splitlines()` without `keepends`: a line ends at any line break,
   "\r\n" counts as one break, and a final break does not open an empty
   last line.
   */
  function SplitLines(s: string): (lines: seq<string>)
    ensures forall l :: l in lines ==> NoBreak(l)
    ensures s == [] <==> lines == []
    decreases |s|
  {
    if s == [] then []
    else
      var k := FirstBreak(s);
      if k == |s| then [s]
      else
        var next := if s[k] == '\r' && k + 1 < |s| && s[k + 1] == '\n' then k + 2 else k + 1;
        [s[..k]] + SplitLines(s[next..])
  }

  /** `"\n".join(lines)`. */
  function Join(lines: seq<string>): string
  {
    if |lines| == 0 then ""
    else if |lines| == 1 then lines[0]
    else lines[0] + "\n" + Join(lines[1..])
  }

  /** One line followed by "\n" is split off as exactly that line. */
  lemma SplitStep(line: string, rest: string)
    requires NoBreak(line)
    ensures SplitLines(line + "\n" + rest) == [line] + SplitLines(rest)
  {
    var s := line + "\n" + rest;
    var k := FirstBreak(s);
    assert s[|line|] == '\n';
    assert forall i :: 0 <= i < |line| ==> s[i] == line[i];
    assert k == |line|;
    assert s[..k] == line;
    assert s[k + 1..] == rest;
  }

  /** A non-empty string without breaks is one line. */
  lemma SplitSingle(s: string)
    requires s != "" && NoBreak(s)
    ensures SplitLines(s) == [s]
  {
  }

  /**
   Splitting undoes joining, provided no line contains a break and the
   last line is not empty (a trailing empty line would vanish).
   */
  lemma {:induction false} SplitJoin(lines: seq<string>)
    requires forall l :: l in lines ==> NoBreak(l)
    requires lines == [] || lines[|lines| - 1] != ""
    ensures SplitLines(Join(lines)) == lines
  {
    if |lines| == 1 {
      SplitSingle(lines[0]);
    } else if |lines| > 1 {
      var tail := lines[1..];
      forall l | l in tail
        ensures NoBreak(l)
      {
        assert l in lines;
      }
      SplitJoin(tail);
      SplitJoinStep(lines);
      assert lines == [lines[0]] + tail;
    }
  }

  /** Joining puts a "\n" after the first line, which splitting takes off again. */
  lemma SplitJoinStep(lines: seq<string>)
    requires |lines| > 1 && NoBreak(lines[0])
    ensures SplitLines(Join(lines)) == [lines[0]] + SplitLines(Join(lines[1..]))
  {
    assert Join(lines) == lines[0] + "\n" + Join(lines[1..]);
    SplitStep(lines[0], Join(lines[1..]));
  }

  /** Lines each terminated by "\n", as a front-matter block is written. */
  function Terminated(lines: seq<string>): (s: string)
    ensures |s| >= |lines|
  {
    if lines == [] then "" else lines[0] + "\n" + Terminated(lines[1..])
  }

  /** A "\n"-terminated block splits into its own lines, whatever follows. */
  lemma {:induction false} SplitTerminated(lines: seq<string>, rest: string)
    requires forall l :: l in lines ==> NoBreak(l)
    ensures SplitLines(Terminated(lines) + rest) == lines + SplitLines(rest)
  {
    if lines == [] {
      assert Terminated(lines) + rest == rest;
    } else {
      var tail := lines[1..];
      calc {
        SplitLines(Terminated(lines) + rest);
        { SplitTerminatedHead(lines, rest); }
        [lines[0]] + SplitLines(Terminated(tail) + rest);
        { SplitTerminated(tail, rest); }
        [lines[0]] + (tail + SplitLines(rest));
        { assert lines == [lines[0]] + tail; }
        lines + SplitLines(rest);
      }
    }
  }

  lemma SplitTerminatedHead(lines: seq<string>, rest: string)
    requires lines != [] && NoBreak(lines[0])
    ensures SplitLines(Terminated(lines) + rest) == [lines[0]] + SplitLines(Terminated(lines[1..]) + rest)
  {
    var s := Terminated(lines[1..]) + rest;
    assert Terminated(lines) + rest == lines[0] + "\n" + s;
    SplitStep(lines[0], s);
  }

  /** Index of the first non-whitespace code point of `s`, or `|s|`. */
  function StripStart(s: string): (k: nat)
    ensures k <= |s|
    ensures forall i :: 0 <= i < k ==> IsSpace(s[i])
    ensures k < |s| ==> !IsSpace(s[k])
  {
    if s == [] || !IsSpace(s[0]) then 0 else 1 + StripStart(s[1..])
  }

  /** One past the last non-whitespace code point of `s[lo..hi]`, or `lo`. */
  function StripEnd(s: string, lo: nat, hi: nat): (k: nat)
    requires lo <= hi <= |s|
    ensures lo <= k <= hi
    ensures forall i :: k <= i < hi ==> IsSpace(s[i])
    ensures lo < k ==> !IsSpace(s[k - 1])
    decreases hi
  {
    if hi == lo || !IsSpace(s[hi - 1]) then hi else StripEnd(s, lo, hi - 1)
  }

  /** `s.strip()`: the slice of `s` left after removing whitespace at both ends. */
  function Strip(s: string): (r: string)
    ensures r != [] ==> !IsSpace(r[0]) && !IsSpace(r[|r| - 1])
    ensures forall c :: c in r ==> c in s
    ensures r == [] <==> forall i :: 0 <= i < |s| ==> IsSpace(s[i])
    ensures exists lo, hi ::
      && 0 <= lo <= hi <= |s| && r == s[lo..hi]
      && (forall i :: 0 <= i < lo ==> IsSpace(s[i]))
      && (forall i :: hi <= i < |s| ==> IsSpace(s[i]))
  {
    var lo := StripStart(s);
    var hi := StripEnd(s, lo, |s|);
    s[lo..hi]
  }

  /** A string with no whitespace at either end is its own `strip()`. */
  lemma StripFixed(s: string)
    requires s != [] ==> !IsSpace(s[0]) && !IsSpace(s[|s| - 1])
    ensures Strip(s) == s
  {
  }

  /** `strip()` is idempotent. */
  lemma StripIdempotent(s: string)
    ensures Strip(Strip(s)) == Strip(s)
  {
    StripFixed(Strip(s));
  }

  /** Index of the first `c` in `s`, or `|s|` when there is none. */
  function Find(s: string, c: char): (k: nat)
    ensures k <= |s|
    ensures forall i :: 0 <= i < k ==> s[i] != c
    ensures k < |s| ==> s[k] == c
  {
    if s == [] || s[0] == c then 0 else 1 + Find(s[1..], c)
  }

  /** The first occurrence is the only index that meets `Find`'s description. */
  lemma {:induction false} FindUnique(s: string, c: char, k: nat)
    requires k <= |s|
    requires forall i :: 0 <= i < k ==> s[i] != c
    requires k < |s| ==> s[k] == c
    ensures Find(s, c) == k
  {
    if k > 0 {
      assert s[0] != c;
      FindUnique(s[1..], c, k - 1);
    }
  }

  /** `str.lower()` on ASCII letters; other code points are kept. */
  function Lower(s: string): (r: string)
    ensures |r| == |s|
    ensures forall i :: 0 <= i < |s| ==> !('A' <= r[i] <= 'Z')
    ensures forall i :: 0 <= i < |s| && !('A' <= s[i] <= 'Z') ==> r[i] == s[i]
    ensures forall i :: 0 <= i < |s| && 'A' <= s[i] <= 'Z' ==>
      'a' <= r[i] <= 'z' && r[i] as int - 'a' as int == s[i] as int - 'A' as int
  {
    seq(|s|, i requires 0 <= i < |s| =>
      if 'A' <= s[i] <= 'Z' then (s[i] as int + 32) as char else s[i])
  }
}
